=== FILE: README.md ===
# pymopac driver, modelled in Dafny

pymopac drives the MOPAC semi-empirical quantum chemistry program through
files. `write_energy` and `write_gradient` write an input deck for one
fixed geometry. MOPAC runs on it. Then `read_energy` and `read_gradient`
pull the heat of formation and the Cartesian gradient out of the output
listing. This project models those four functions and `COMPONENT_INDEX`,
all in `pymopac/mopac.py`, as pure Dafny functions. It proves what the
deck looks like and what the readers return.

Modules:

- `Options`: the `Option` type.
- `Text`: Python's `str.split()`, `sub in s` and `%-Ns` / `%Ns` padding, plus
  splitting a text at newlines, with the lemmas that split padded fields and
  newline-separated records back apart.
- `Numerals`: decimal numerals. `Fixed10` is `"%.10f"` for a coordinate held as
  an integer count of 1e-10 angstrom. `ParseFixed10` reads such a numeral
  back. `ParseInt` is `int()` on a whitespace-free token.
- `MopacInput`: the deck writers, plus a deck reader that the source does not
  have. The reader exists only to state the writers' round trip: reading a
  written deck back gives the keywords, every label, every coordinate and
  the mode's flags.
  - The record layout is proved for any numeral printer that prints a
    coordinate as one whitespace-free token (`OneToken`) and that
    `ParseFixed10` reads back (`ReadsBack`).
  - `Fixed10Printer` shows that `%.10f` is such a printer. `WriteEnergy` and
    `WriteGradient` use it.
- `MopacOutput`: `read_energy` and `read_gradient` over the list of lines
  `readlines()` returns.
  - Python's `float()` is the parameter `toFloat`. Its result is a `Float`:
    finite, +inf, -inf or NaN.
  - `exit()` after a failure message and every exception the code lets
    escape end the read as an `Err`:
    - `BadEnergy`
    - `MissingGradient`
    - `UnknownAxis`: a `KeyError` from `COMPONENT_INDEX`
    - `Malformed`: an `IndexError` or `ValueError`
  - The gradient is a sequence of rows of three `Float` cells.
- `MopacJob`: the `.mop`, `.out` and `.arc` names that `get_energy` and
  `get_gradient` derive from one stem.

Details of the code that the model keeps:

- The energy check compares the signed value (`energy > 1e19`), not its
  magnitude. A very negative energy, -inf or NaN passes the check.
- The atom count comes from the LAST `Empirical Formula` line at or before the
  first `FINAL HEAT OF FORMATION` line, not from the first one.
  - A formula line that is also the energy line still counts: the formula
    test comes first in the loop body.
  - Formula lines after the energy line are never read.
- Each atom record is written as a newline followed by the record. So the
  deck is the keyword line, two empty lines, then the records on consecutive
  lines. With at least one atom it ends in a space rather than a newline;
  with no atoms it ends in the two newlines after the keyword line.
- The label is left-justified in two columns (`%-2s`): a one-character label
  is followed by a space of padding.

## Model

| member | source | states |
|---|---|---|
| `MopacInput.WriteEnergy` | pymopac/mopac.py:25-43 | the energy deck starts with `<method> NOSYM 1SCF` and two newlines, and is exactly that when there are no atoms |
| `MopacInput.WriteGradient` | pymopac/mopac.py:75-93 | the gradient deck starts with `<method> NOSYM 1SCF GRADIENTS` and two newlines, and is exactly that when there are no atoms |
| `MopacInput.WriteEnergyRoundTrip` | pymopac/mopac.py:34-39 | reading the energy deck back gives the keyword line `<method> NOSYM 1SCF` and, in order, every atom's label and coordinates with flags `0 0 0`; no record is lost or added |
| `MopacInput.WriteGradientRoundTrip` | pymopac/mopac.py:84-89 | reading the gradient deck back gives `<method> NOSYM 1SCF GRADIENTS` and every atom's label and coordinates with flags `1 1 1` |
| `MopacInput.WriteInputRoundTrip` | pymopac/mopac.py:34-39 | for any one-token numeral printer that reads back, the deck reads back as its keywords and one entry per label, with that label's position and three copies of the mode's flag |
| `MopacInput.WriteInput` | pymopac/mopac.py:34-39 | the deck begins with the keyword line and an empty title line, and holds nothing else when there are no atoms |
| `MopacInput.WriteInputLines` | pymopac/mopac.py:34-39 | when neither the method nor a label holds a newline, the deck's lines are the keyword line, two empty lines and then one record per atom, in order |
| `MopacInput.WriteInputEnd` | pymopac/mopac.py:36-39 | a deck with at least one atom ends in the space after the last flag, not in a newline |
| `MopacInput.AtomLineTokens` | pymopac/mopac.py:38-39 | a record of a whitespace-free label splits into exactly seven tokens: the label, then each coordinate followed by its flag, so the flags are tokens 2, 4 and 6 |
| `MopacInput.AtomLine` | pymopac/mopac.py:38-39 | a record starts with the label, pads a one-character label to two columns with the space character ` `, is longer than the label plus one, and ends in a space |
| `MopacInput.AtomLineLayout` | pymopac/mopac.py:38-39 | a record is the two-column label field, exactly one space, then the x, y and z fields back to back, at known offsets |
| `MopacInput.Field` | pymopac/mopac.py:38-39 | a coordinate field ends in a space and breaks no line when the numeral is one token |
| `MopacInput.FieldLayout` | pymopac/mopac.py:38-39 | a coordinate field is the numeral right-justified in 20 columns (only the space character ` ` before it, longer numerals never cut), then a space, the flag and a space |
| `MopacInput.AtomLineNoNewline` | pymopac/mopac.py:38-39 | a record breaks no line unless its label does |
| `MopacInput.AtomLinesNoNewline` | pymopac/mopac.py:36-39 | no record of the deck breaks a line unless its label does |
| `MopacInput.AtomLinesEnd` | pymopac/mopac.py:36-39 | the last record ends in the space after its last flag |
| `MopacInput.AtomLines` | pymopac/mopac.py:36-39 | there is one record per label, and record `i` is the record of label `i` at position `i` |
| `MopacInput.Records` | pymopac/mopac.py:36 | one record per label: the loop runs over the labels, not over the coordinate rows |
| `MopacInput.RecordsAt` | pymopac/mopac.py:36-39 | record `i` is built from label `i` and coordinate row `i` |
| `MopacInput.ReadAtomLineRoundTrip` | pymopac/mopac.py:38-39 | one record reads back as its label, its position and its three flags |
| `MopacInput.ReadAtomLinesRoundTrip` | pymopac/mopac.py:36-39 | the records read back, in order, as the expected entries |
| `MopacInput.Entries` | pymopac/mopac.py:36-39 | entry `i` of what a deck must read back as is label `i`, position `i` and three flags |
| `MopacInput.Keywords` | pymopac/mopac.py:34 | the keyword line breaks no line unless the method does |
| `MopacInput.FixedKeywords` | pymopac/mopac.py:84 | the fixed keywords are 11 characters for energies and 21 with `GRADIENTS`, and hold no newline |
| `MopacInput.Flag` | pymopac/mopac.py:88 | the flag is one token |
| `MopacInput.DeckText` | pymopac/mopac.py:34-39 | the deck text starts with the keyword line and two newlines, is exactly that without records, and ends in the last character of the last record |
| `MopacInput.Fixed10Printer` | pymopac/mopac.py:38-39 | `%.10f` prints every coordinate as one token, and reading it back gives the coordinate |
| `Numerals.Fixed10` | pymopac/mopac.py:38 | a `%.10f` numeral has at least 12 characters, a point 11 characters from the end, and starts with `-` exactly for negative values |
| `Numerals.Fixed10RoundTrip` | pymopac/mopac.py:38 | reading a `%.10f` numeral back gives the value that was printed |
| `Numerals.ParseInt` | pymopac/mopac.py:144 | `int()` accepts a token exactly when it is a digit string, or `-` or `+` followed by a digit string; digits read as their decimal value, `+digits` as the same value and `-digits` as the negated value |
| `Numerals.ParseIntNumeral` | pymopac/mopac.py:144 | `int()` reads back the decimal numeral of any integer |
| `Text.Split` | pymopac/mopac.py:63 | `split()` yields only non-empty tokens without whitespace |
| `Text.ContainsInfix` | pymopac/mopac.py:62 | `sub in s` finds a marker anywhere on the line |
| `Text.ContainsOccurs` | pymopac/mopac.py:62 | `sub in s` holds exactly when `sub` occurs in `s` at some index |
| `Text.PadRight` | pymopac/mopac.py:38 | `%-2s` keeps the label in front, pads it to two columns with the space character ` ` (U+0020) and never cuts it |
| `Text.PadLeft` | pymopac/mopac.py:38 | `%20` keeps the numeral at the end, pads it in front to 20 columns with the space character ` ` (U+0020) and never cuts it |
| `Text.SplitLinesHeader` | pymopac/mopac.py:34-39 | a keyword line, two newlines and newline-prefixed records split back into exactly those lines |
| `MopacOutput.ComponentIndex` | pymopac/mopac.py:12-15 | a known axis maps to a column below 3 whose name is that axis |
| `MopacOutput.ComponentIndexOfAxis` | pymopac/mopac.py:12-15 | `X`, `Y` and `Z` are keys, mapped to columns 0, 1 and 2 |
| `MopacOutput.FirstMatch` | pymopac/mopac.py:61-65 | the search returns the first line holding the marker, or reports that no line holds it |
| `MopacOutput.FirstMatchAppend` | pymopac/mopac.py:61-65 | lines after the first match cannot move it |
| `MopacOutput.AboveCompares` | pymopac/mopac.py:67 | `energy > 1e19` compares a finite energy by value; +inf is above the bound, -inf and NaN are not |
| `MopacOutput.EnergyOf` | pymopac/mopac.py:63-64 | the energy of a marker line is readable exactly when it has a sixth token that `float()` accepts, and is that token's value; otherwise the read fails as malformed |
| `MopacOutput.TokenFloat` | pymopac/mopac.py:64 | `float(tokens[k])` succeeds exactly when token `k` exists and `float()` accepts it; otherwise the read fails as malformed |
| `MopacOutput.ReadEnergy` | pymopac/mopac.py:46-72 | an accepted energy is at most 1e19 and is token 5 of the first marker line; without a marker line the read fails with a bad energy; an unreadable token 5 on the first marker line fails as malformed; the only failures are a bad energy and a malformed line |
| `MopacOutput.ReadEnergyIgnoresLater` | pymopac/mopac.py:61-65 | once there is a marker line, lines appended after it never change the result |
| `MopacOutput.ReadEnergyFirstLine` | pymopac/mopac.py:59-69 | the value on the first marker line is the result when it is at most 1e19, and a bad energy otherwise |
| `MopacOutput.AtomCount` | pymopac/mopac.py:113-115 | the count is `int()` of the second-to-last token; it is read exactly when the line has at least two tokens and that token is an integer, and otherwise fails as malformed |
| `MopacOutput.ScanPrologue` | pymopac/mopac.py:111-120 | the first loop can only fail as malformed |
| `MopacOutput.ScanPrologueOk` | pymopac/mopac.py:111-120 | the first loop succeeds exactly when every formula line up to the first marker line has a readable count and that marker line has a readable energy |
| `MopacOutput.ReadEnergyMarker` | pymopac/mopac.py:59-69 | an accepted energy implies that a marker line exists and that its energy is readable |
| `MopacOutput.PrologueEnergy` | pymopac/mopac.py:108-120 | the first loop's energy is token 5 of the first marker line, or the sentinel 1e20 when there is none |
| `MopacOutput.PrologueAtoms` | pymopac/mopac.py:109-120 | the first loop's atom count is read from the last formula line at or before the first marker line |
| `MopacOutput.PrologueNoFormula` | pymopac/mopac.py:109-120 | without a formula line up to the first marker line, the atom count keeps its initial value |
| `MopacOutput.ParseRow` | pymopac/mopac.py:144-149 | a row is read as cell (`int(tokens[1]) - 1`, axis of `tokens[4]`), counted from the end when negative, holding `float(tokens[6])`; the row is accepted exactly when the atom number and value are readable, the axis is known and the atom is in `[-n, n)`; an unreadable atom number fails as malformed, after it an unknown axis fails as `UnknownAxis`, and with a known axis every failure (unreadable value, atom out of range) is malformed |
| `MopacOutput.ZeroTable` | pymopac/mopac.py:136 | `np.zeros((n, 3))` has `n` rows of three cells, all 0 |
| `MopacOutput.Store` | pymopac/mopac.py:149 | storing one value changes that cell and no other |
| `MopacOutput.Table` | pymopac/mopac.py:139-142 | the rows the loop consumes are the leading lines that split into exactly eight tokens, in order, and they stop at the end of the file or at the first line that does not |
| `MopacOutput.FillRows` | pymopac/mopac.py:139-149 | the second loop keeps the table's shape and can only fail as malformed or with an unknown axis |
| `MopacOutput.FillRowsOk` | pymopac/mopac.py:139-149 | the second loop succeeds exactly when every consumed row is readable |
| `MopacOutput.FillRowsCells` | pymopac/mopac.py:139-149 | after the second loop each cell holds the value of the last consumed row that targets it, or its initial value |
| `MopacOutput.RowsParseCons` | pymopac/mopac.py:139-149 | the rows are all readable exactly when the first one is and the rest are |
| `MopacOutput.LastValueUntouched` | pymopac/mopac.py:136-149 | a cell that no row targets keeps its initial value |
| `MopacOutput.LastValueLatest` | pymopac/mopac.py:139-149 | a cell holds the value of the last row that targets it: later rows overwrite earlier ones |
| `MopacOutput.LastValueCons` | pymopac/mopac.py:139-149 | reading the rows backwards agrees with applying the first row and then the rest |
| `MopacOutput.ReadGradient` | pymopac/mopac.py:95-152 | a returned energy is at most 1e19 and the gradient has three cells per row; without a gradient header the read fails; `BadEnergy` means the first loop ended with an energy above 1e19, and `MissingGradient` means the first loop succeeded and either no header was found or no formula line set the count |
| `MopacOutput.GradientSteps` | pymopac/mopac.py:122-149 | a successful read had a good first loop, an atom count equal to the number of gradient rows, a header line, and a second loop that filled a zero table of that size |
| `MopacOutput.GradientEnergy` | pymopac/mopac.py:117-124 | `read_gradient` and `read_energy` report the same energy |
| `MopacOutput.PrologueReadEnergy` | pymopac/mopac.py:122-124 | after a good first loop, the energy check agrees with `read_energy` |
| `MopacOutput.EnergyBeforeGradient` | pymopac/mopac.py:122-134 | a missing gradient is reported only when `read_energy` accepts the energy; a rejected energy is reported as a bad energy, whether or not a gradient table exists |
| `MopacOutput.NoHeaderMissingGradient` | pymopac/mopac.py:127-134 | with readable formula lines up to the energy line, an accepted energy and no gradient header, the read fails with a missing gradient |
| `MopacOutput.GradientAtoms` | pymopac/mopac.py:113-136 | the gradient has as many rows as the last formula line at or before the energy line states |
| `MopacOutput.NoFormulaNoGradient` | pymopac/mopac.py:109-134 | without a formula line up to the energy line, no gradient is returned, and when the energy is accepted the failure is a missing gradient |
| `MopacOutput.GradientRowsParse` | pymopac/mopac.py:139-149 | every row of the table of a successful read was readable |
| `MopacOutput.GradientCells` | pymopac/mopac.py:136-149 | each gradient cell holds the value of the last table row that sets it, or 0 when no row does |
| `MopacOutput.UnknownAxisFails` | pymopac/mopac.py:144-145 | a table row with a readable atom number and an axis other than X, Y or Z makes the read fail |
| `MopacOutput.GoodPrologue` | pymopac/mopac.py:108-124 | with readable formula lines and an accepted energy, the first loop ends with the count of the last formula line in scope and the energy `read_energy` returns, which passes the check |
| `MopacOutput.ReadGradientOk` | pymopac/mopac.py:95-152 | a file with readable formula lines, an accepted energy, a non-negative count on the last formula line, a header and table rows that all parse yields a gradient of that many rows, with the energy `read_energy` returns |
| `MopacOutput.FillRowsUnknownAxis` | pymopac/mopac.py:139-149 | when the rows before it parse, the first row with a readable atom number and an unknown axis stops the second loop with `UnknownAxis` |
| `MopacOutput.UnknownAxisCause` | pymopac/mopac.py:139-149 | a read that fails with `UnknownAxis` had a gradient header and, after it, a table row with a readable atom number and an axis other than X, Y or Z |
| `MopacOutput.FillRowsUnknownAxisCause` | pymopac/mopac.py:139-149 | the second loop fails with `UnknownAxis` only at a table row with a readable atom number and an unknown axis |
| `MopacOutput.UnknownAxisError` | pymopac/mopac.py:139-149 | in a file that otherwise yields a gradient, the first table row with a readable atom number and an axis other than X, Y or Z makes the read fail with `UnknownAxis` |
| `MopacJob.Files` | pymopac/mopac.py:162-166 | the three names are the stem plus a four-character extension |
| `MopacJob.FilesDistinct` | pymopac/mopac.py:162-166 | one run's input, output and archive names are pairwise different |
| `MopacJob.FilesDisjoint` | pymopac/mopac.py:188-192 | runs with different stems share no file name, so removing one run's files never removes another's |

## Left out

- `execute_mopac` is left out. It builds a shell command line and runs the
  external program.
- File handling is left out: opening, writing, reading and closing files,
  and `os.remove`. The writers return the file content and the readers take
  the list of lines.
- The `uuid` stem is a parameter of `MopacJob.Files`. The rest of
  `get_energy` and `get_gradient` only sequences the calls that are modelled.
- The failure messages `print` shows before `exit()` are left out; only the
  kind of failure is kept.
- `read_energy` and `read_gradient` set a variable `start` that
  `read_energy` never uses. The model has no counterpart for it.
- Default arguments are left out: `"PM7"` for `write_energy` and `"PM6"` for
  `write_gradient`. The method is always an explicit parameter.
- Binary floating point is left out.
  - A coordinate is an integer count of 1e-10 angstrom: the value that
    `%.10f` prints after rounding.
  - So a non-finite coordinate cannot be written: `%20.10f` prints `inf`,
    `-inf` or `nan` for one, and the deck writers here have no such input.
  - Rounding an arbitrary double to ten places is not modelled. Neither is
    the `-0.0000000000` that Python prints for negative zero or for tiny
    negative values.
- `float()` is the parameter `toFloat`. The model does not fix which tokens
  Python accepts (`inf`, `nan`, exponents, underscores).
- `int()` accepts an optional sign and ASCII digits only. Python's
  underscores, non-ASCII digits and surrounding whitespace are not modelled;
  the last cannot occur in a token from `split()`.
- The gradient array's element type is left out: cells hold the `Float`
  that was read. NumPy's float64 storage is not modelled.
- Only the first three columns of each coordinate row are modelled; the
  source reads no others.
- MopacInput.WriteEnergy: requires at least as many coordinate rows as labels. With fewer rows the source raises `IndexError`, which the model does not represent.
- MopacInput.WriteGradient: requires at least as many coordinate rows as labels, for the same reason.
- MopacInput.WriteEnergyRoundTrip: requires non-empty labels without whitespace and a method without a newline. Other labels still give the same text, but do not read back token by token; an empty label is written as two spaces and gives no token.
- MopacInput.WriteGradientRoundTrip: requires the same of labels and method.

=== FILE: input.dfy ===
/**
  The MOPAC input deck written by `write_energy` and `write_gradient`
  (pymopac/mopac.py): a keyword line, an empty title line, and one
  newline-prefixed record per atom holding its element label and its three
  Cartesian coordinates, each coordinate followed by an optimisation flag.

  The record layout is stated for any numeral printer `num` that turns a
  coordinate into one whitespace-free token; the writers themselves use
  `Fixed10`, the `%.10f` rendering, which is such a printer and which reads
  back exactly.

  Also a reader for such decks, which exists only to state what the writers
  promise: reading back a written deck recovers the keywords, the labels,
  the coordinates and the flags.
 */
module MopacInput {
  import opened Options
  import opened Text
  import opened Numerals

  /** A Cartesian position, each component in units of 1e-10 angstrom. */
  datatype Vec3 = Vec3(x: int, y: int, z: int)

  /** `write_energy` asks for the energy of a fixed geometry;
      `write_gradient` additionally asks for its gradient. */
  datatype Mode = EnergyOnly | WithGradients

  /** The first line of the deck: the method, then the fixed keywords. */
  function Keywords(methodName: string, mode: Mode): (k: string)
    ensures '\n' !in methodName ==> '\n' !in k
  {
    methodName + FixedKeywords(mode)
  }

  /** The fixed keywords after the method: no symmetry, a single SCF
      calculation at the given geometry, and for gradients, `GRADIENTS`. */
  function FixedKeywords(mode: Mode): (o: string)
    ensures |o| == if mode == EnergyOnly then 11 else 21
    ensures '\n' !in o
  {
    if mode == EnergyOnly then " NOSYM 1SCF" else " NOSYM 1SCF GRADIENTS"
  }

  /** The optimisation flag after every coordinate: `0` (frozen) when only
      the energy is wanted, `1` (free, so MOPAC prints its gradient)
      otherwise. */
  function Flag(mode: Mode): (f: string)
    ensures Word(f) && |f| == 1
  {
    if mode == EnergyOnly then "0" else "1"
  }

  /** A numeral printer that prints every coordinate as one token. */
  ghost predicate OneToken(num: int -> string) {
    forall c :: Word(num(c))
  }

  /** A numeral printer whose numerals `ParseFixed10` reads back exactly. */
  ghost predicate ReadsBack(num: int -> string) {
    forall c :: ParseFixed10(num(c)) == Some(c)
  }

  /** `" %20<num> <flag> "` without its leading space: one coordinate
      right-justified in 20 columns, then its flag. */
  function Field(num: int -> string, c: int, mode: Mode): (r: string)
    ensures |r| > 0 && r[|r| - 1] == ' '
    ensures Word(num(c)) ==> '\n' !in r
  {
    var n := num(c);
    var p := PadLeft(n, 20);
    var r := p + (" " + (Flag(mode) + " "));
    assert Word(n) ==> '\n' !in p by {
      if Word(n) {
        WordNoNewline(n);
        assert p == p[..|p| - |n|] + n;
      }
    }
    r
  }

  /** `"%-2s %20.10f f %20.10f f %20.10f f "`: the label left-justified in
      two columns, then the three coordinate fields. */
  function AtomLine(num: int -> string, element: string, v: Vec3, mode: Mode): (r: string)
    ensures |r| > |element| + 1 && |r| > 2
    ensures r[..|element|] == element
    ensures |element| < 2 ==> AllSpace(r[|element|..2])
    ensures forall k :: |element| <= k < 2 ==> r[k] == ' '
    ensures r[|r| - 1] == ' '
  {
    var p := PadRight(element, 2);
    var fz := Field(num, v.z, mode);
    var fs := Field(num, v.y, mode) + fz;
    var rest := " " + (Field(num, v.x, mode) + fs);
    LastOfAppend(Field(num, v.y, mode), fz);
    LastOfAppend(Field(num, v.x, mode), fs);
    LastOfAppend(" ", Field(num, v.x, mode) + fs);
    LastOfAppend(p, rest);
    SliceOfAppend(p, rest, 0, |element|);
    if |element| < 2 then
      SliceOfAppend(p, rest, |element|, 2);
      p + rest
    else
      p + rest
  }

  /** The columns of a coordinate field: the numeral right-justified in 20
      columns, then one space, the flag and one space. */
  lemma FieldLayout(num: int -> string, c: int, mode: Mode)
    ensures var r := Field(num, c, mode);
            var n := num(c);
            && |r| == (if |n| < 20 then 20 else |n|) + 3
            && AllSpace(r[..|r| - 3 - |n|])
            && (forall k :: 0 <= k < |r| - 3 - |n| ==> r[k] == ' ')
            && r[|r| - 3 - |n|..|r| - 3] == n
            && r[|r| - 3..] == " " + Flag(mode) + " "
  {
    var n := num(c);
    var p := PadLeft(n, 20);
    var t := " " + (Flag(mode) + " ");
    assert Field(num, c, mode) == p + t;
    SliceOfAppend(p, t, 0, |p| - |n|);
    SliceOfAppend(p, t, |p| - |n|, |p|);
    assert (p + t)[|p|..] == t;
  }

  /** `r` is the label field `p`, one space, then the fields `a`, `b` and
      `c` back to back. */
  predicate Columns(r: string, p: string, a: string, b: string, c: string) {
    && |r| == |p| + 1 + |a| + |b| + |c|
    && r[..|p|] == p
    && r[|p|] == ' '
    && r[|p| + 1..|p| + 1 + |a|] == a
    && r[|p| + 1 + |a|..|p| + 1 + |a| + |b|] == b
    && r[|p| + 1 + |a| + |b|..] == c
  }

  lemma ColumnsOfAppend(p: string, a: string, b: string, c: string)
    ensures Columns(p + (" " + (a + (b + c))), p, a, b, c)
  {
    var r := p + (" " + (a + (b + c)));
    assert r[..|p|] == p;
    assert r[|p| + 1..] == a + (b + c);
    assert (a + (b + c))[..|a|] == a;
    assert (a + (b + c))[|a|..] == b + c;
    assert (b + c)[..|b|] == b;
  }

  /** The columns of a record: the label field `%-2s`, one space, then the
      three coordinate fields back to back. */
  lemma AtomLineLayout(num: int -> string, element: string, v: Vec3, mode: Mode)
    ensures Columns(AtomLine(num, element, v, mode), PadRight(element, 2),
                    Field(num, v.x, mode), Field(num, v.y, mode), Field(num, v.z, mode))
  {
    var p := PadRight(element, 2);
    var fx := Field(num, v.x, mode);
    var fy := Field(num, v.y, mode);
    var fz := Field(num, v.z, mode);
    assert AtomLine(num, element, v, mode) == p + (" " + (fx + (fy + fz)));
    ColumnsOfAppend(p, fx, fy, fz);
  }

  /** A record breaks no line unless its label does. */
  lemma AtomLineNoNewline(num: int -> string, element: string, v: Vec3, mode: Mode)
    requires OneToken(num)
    requires '\n' !in element
    ensures '\n' !in AtomLine(num, element, v, mode)
  {
    var p := PadRight(element, 2);
    assert Word(num(v.x)) && Word(num(v.y)) && Word(num(v.z));
    assert '\n' !in Spaces(2 - |element|);
    assert '\n' !in p;
  }

  /** One record per label, in index order: `rec` applied to the label
      and the position at the same index. */
  function Records(rec: (string, Vec3) -> string, coords: seq<Vec3>, species: seq<string>): (ls: seq<string>)
    requires |species| <= |coords|
    ensures |ls| == |species|
    decreases |species|
  {
    if species == [] then []
    else [rec(species[0], coords[0])] + Records(rec, coords[1..], species[1..])
  }

  lemma {:induction false} RecordsAt(rec: (string, Vec3) -> string, coords: seq<Vec3>, species: seq<string>)
    requires |species| <= |coords|
    ensures forall i :: 0 <= i < |species| ==> Records(rec, coords, species)[i] == rec(species[i], coords[i])
    decreases |species|
  {
    if species != [] {
      RecordsAt(rec, coords[1..], species[1..]);
      forall i | 0 < i < |species|
        ensures Records(rec, coords, species)[i] == rec(species[i], coords[i])
      {
        assert species[1..][i - 1] == species[i] && coords[1..][i - 1] == coords[i];
      }
    }
  }

  /** The record of every atom, in index order. */
  function AtomLines(num: int -> string, coords: seq<Vec3>, species: seq<string>, mode: Mode): (ls: seq<string>)
    requires |species| <= |coords|
    ensures |ls| == |species|
    ensures forall i :: 0 <= i < |species| ==> ls[i] == AtomLine(num, species[i], coords[i], mode)
  {
    var rec := (e: string, v: Vec3) => AtomLine(num, e, v, mode);
    RecordsAt(rec, coords, species);
    Records(rec, coords, species)
  }

  /** The last record ends in the space after its last flag. */
  lemma AtomLinesEnd(num: int -> string, coords: seq<Vec3>, species: seq<string>, mode: Mode)
    requires 0 < |species| <= |coords|
    ensures EndsInSpace(AtomLines(num, coords, species, mode)[|species| - 1])
  {
  }

  predicate EndsInSpace(l: string) {
    |l| > 0 && l[|l| - 1] == ' '
  }

  /** No record breaks a line unless its label does. */
  lemma AtomLinesNoNewline(num: int -> string, coords: seq<Vec3>, species: seq<string>, mode: Mode)
    requires OneToken(num)
    requires |species| <= |coords|
    requires forall i :: 0 <= i < |species| ==> '\n' !in species[i]
    ensures forall i :: 0 <= i < |species| ==> '\n' !in AtomLines(num, coords, species, mode)[i]
  {
    forall i | 0 <= i < |species| {
      AtomLineNoNewline(num, species[i], coords[i], mode);
    }
  }

  /** The text of a deck with keyword line `k` and records `ls`: the
      keyword line, an empty title line, then each record after a newline. */
  function DeckText(k: string, ls: seq<string>): (text: string)
    ensures |text| >= |k| + 2
    ensures text[..|k| + 2] == k + "\n\n"
    ensures ls == [] ==> text == k + "\n\n"
    ensures ls != [] && |ls[|ls| - 1]| > 0 ==> text[|text| - 1] == ls[|ls| - 1][|ls[|ls| - 1]| - 1]
  {
    var text := k + "\n\n" + Prefixed(ls, '\n');
    assert ls != [] && |ls[|ls| - 1]| > 0 ==> text[|text| - 1] == ls[|ls| - 1][|ls[|ls| - 1]| - 1] by {
      if ls != [] && |ls[|ls| - 1]| > 0 {
        PrefixedLast(ls, '\n');
      }
    }
    text
  }

  lemma {:induction false} PrefixedLast(ls: seq<string>, sep: char)
    requires |ls| > 0
    requires |ls[|ls| - 1]| > 0
    ensures var p := Prefixed(ls, sep); |p| > 0 && p[|p| - 1] == ls[|ls| - 1][|ls[|ls| - 1]| - 1]
  {
    if |ls| > 1 {
      PrefixedLast(ls[1..], sep);
    }
  }

  /** The deck text of `write_energy` / `write_gradient` with the numeral
      printer `num`. The source indexes `coords[i]` for every label, so
      `coords` must have at least one row per label; extra rows are never
      read. */
  function WriteInput(num: int -> string, coords: seq<Vec3>, species: seq<string>, methodName: string, mode: Mode): (text: string)
    requires |species| <= |coords|
    ensures |text| >= |Keywords(methodName, mode)| + 2
    ensures text[..|Keywords(methodName, mode)| + 2] == Keywords(methodName, mode) + "\n\n"
    ensures |species| == 0 ==> text == Keywords(methodName, mode) + "\n\n"
  {
    DeckText(Keywords(methodName, mode), AtomLines(num, coords, species, mode))
  }

  /** A deck with at least one atom ends in the space after the last flag,
      not in a newline. */
  lemma WriteInputEnd(num: int -> string, coords: seq<Vec3>, species: seq<string>, methodName: string, mode: Mode)
    requires |species| <= |coords|
    requires |species| > 0
    ensures EndsInSpace(WriteInput(num, coords, species, methodName, mode))
  {
    AtomLinesEnd(num, coords, species, mode);
    DeckTextEnd(Keywords(methodName, mode), AtomLines(num, coords, species, mode));
  }

  /** A deck whose last record ends in a space ends in that space. */
  lemma DeckTextEnd(k: string, ls: seq<string>)
    requires |ls| > 0 && EndsInSpace(ls[|ls| - 1])
    ensures EndsInSpace(DeckText(k, ls))
  {
  }

  /** Neither the method nor any label breaks a line. */
  predicate NoNewlines(methodName: string, species: seq<string>) {
    && '\n' !in methodName
    && forall i :: 0 <= i < |species| ==> '\n' !in species[i]
  }

  /** When neither the method nor a label contains a newline, the deck's
      lines are the keyword line, two empty lines and one record per atom. */
  lemma WriteInputLines(num: int -> string, coords: seq<Vec3>, species: seq<string>, methodName: string, mode: Mode)
    requires OneToken(num)
    requires |species| <= |coords|
    requires NoNewlines(methodName, species)
    ensures SplitLines(WriteInput(num, coords, species, methodName, mode))
         == [Keywords(methodName, mode), "", ""] + AtomLines(num, coords, species, mode)
  {
    AtomLinesNoNewline(num, coords, species, mode);
    SplitLinesHeader(Keywords(methodName, mode), AtomLines(num, coords, species, mode));
  }

  lemma SplitField(num: int -> string, c: int, mode: Mode, rest: string)
    requires Word(num(c))
    ensures Split(Field(num, c, mode) + rest) == [num(c), Flag(mode)] + Split(rest)
  {
    SplitLeftPadded(PadLeft(num(c), 20), num(c), Flag(mode), rest);
  }

  lemma SplitLastField(num: int -> string, c: int, mode: Mode)
    requires Word(num(c))
    ensures Split(Field(num, c, mode)) == [num(c), Flag(mode)]
  {
    assert Field(num, c, mode) == Field(num, c, mode) + "";
    SplitField(num, c, mode, "");
    assert Split("") == [];
  }

  lemma Seven<T>(s0: seq<T>, s1: seq<T>, s2: seq<T>, s3: seq<T>, a: T, b: T, c: T, d: T, e: T, f: T, g: T)
    requires s0 == [a] + s1 && s1 == [b, c] + s2 && s2 == [d, e] + s3 && s3 == [f, g]
    ensures s0 == [a, b, c, d, e, f, g]
  {
  }

  /** A record of a whitespace-free label splits into exactly seven tokens:
      the label, then each coordinate numeral followed by its flag, so the
      flags are tokens 2, 4 and 6. */
  lemma AtomLineTokens(num: int -> string, element: string, v: Vec3, mode: Mode)
    requires OneToken(num)
    requires Word(element)
    ensures Split(AtomLine(num, element, v, mode))
         == [element, num(v.x), Flag(mode), num(v.y), Flag(mode), num(v.z), Flag(mode)]
  {
    var f := Flag(mode);
    assert Word(num(v.x)) && Word(num(v.y)) && Word(num(v.z));
    var fz := Field(num, v.z, mode);
    var fyz := Field(num, v.y, mode) + fz;
    var fields := Field(num, v.x, mode) + fyz;
    SplitRightPadded(PadRight(element, 2), element, fields);
    SplitField(num, v.x, mode, fyz);
    SplitField(num, v.y, mode, fz);
    SplitLastField(num, v.z, mode);
    Seven(Split(AtomLine(num, element, v, mode)), Split(fields), Split(fyz), Split(fz),
          element, num(v.x), f, num(v.y), f, num(v.z), f);
  }

  /** `write_energy`: keywords `<method> NOSYM 1SCF`, coordinates printed
      with `%.10f`, flags `0`. */
  function WriteEnergy(coords: seq<Vec3>, species: seq<string>, methodName: string): (text: string)
    requires |species| <= |coords|
    ensures |text| >= |methodName| + 13
    ensures text[..|methodName| + 13] == methodName + " NOSYM 1SCF" + "\n\n"
    ensures |species| == 0 ==> text == methodName + " NOSYM 1SCF" + "\n\n"
  {
    WriteInput(Fixed10, coords, species, methodName, EnergyOnly)
  }

  /** `write_gradient`: keywords `<method> NOSYM 1SCF GRADIENTS`,
      coordinates printed with `%.10f`, flags `1`. */
  function WriteGradient(coords: seq<Vec3>, species: seq<string>, methodName: string): (text: string)
    requires |species| <= |coords|
    ensures |text| >= |methodName| + 23
    ensures text[..|methodName| + 23] == methodName + " NOSYM 1SCF GRADIENTS" + "\n\n"
    ensures |species| == 0 ==> text == methodName + " NOSYM 1SCF GRADIENTS" + "\n\n"
  {
    WriteInput(Fixed10, coords, species, methodName, WithGradients)
  }

  // ---------------------------------------------------------------------
  // Reading a deck back

  /** One atom record as read back: label, position and the three flags. */
  datatype AtomEntry = AtomEntry(element: string, pos: Vec3, flags: seq<string>)

  datatype Deck = Deck(keywords: string, atoms: seq<AtomEntry>)

  /** A record is seven tokens: label, then coordinate and flag three times. */
  function ReadAtomLine(line: string): Option<AtomEntry> {
    var t := Split(line);
    if |t| != 7 then None
    else
      match (ParseFixed10(t[1]), ParseFixed10(t[3]), ParseFixed10(t[5]))
      case (Some(x), Some(y), Some(z)) => Some(AtomEntry(t[0], Vec3(x, y, z), [t[2], t[4], t[6]]))
      case _ => None
  }

  function ReadAtomLines(lines: seq<string>): (r: Option<seq<AtomEntry>>)
    ensures r.Some? ==> |r.value| == |lines|
  {
    if lines == [] then Some([])
    else
      match (ReadAtomLine(lines[0]), ReadAtomLines(lines[1..]))
      case (Some(a), Some(rest)) => Some([a] + rest)
      case _ => None
  }

  /** Reads a deck: keyword line, two empty lines, then one record per line. */
  function ReadInput(text: string): Option<Deck> {
    var ls := SplitLines(text);
    if |ls| < 3 || ls[1] != "" || ls[2] != "" then None
    else
      match ReadAtomLines(ls[3..])
      case Some(atoms) => Some(Deck(ls[0], atoms))
      case None => None
  }

  /** What the deck of `species`/`coords` in a given mode must read back as. */
  function Entries(coords: seq<Vec3>, species: seq<string>, mode: Mode): (es: seq<AtomEntry>)
    requires |species| <= |coords|
    ensures |es| == |species|
    ensures forall i :: 0 <= i < |es| ==> es[i] == AtomEntry(species[i], coords[i], [Flag(mode), Flag(mode), Flag(mode)])
    decreases |species|
  {
    if species == [] then []
    else [AtomEntry(species[0], coords[0], [Flag(mode), Flag(mode), Flag(mode)])] + Entries(coords[1..], species[1..], mode)
  }

  /** A record reads back as its label, its position and its three flags. */
  lemma ReadAtomLineRoundTrip(num: int -> string, element: string, v: Vec3, mode: Mode)
    requires OneToken(num) && ReadsBack(num)
    requires Word(element)
    ensures ReadAtomLine(AtomLine(num, element, v, mode)) == Some(AtomEntry(element, v, [Flag(mode), Flag(mode), Flag(mode)]))
  {
    AtomLineTokens(num, element, v, mode);
    assert ParseFixed10(num(v.x)) == Some(v.x);
    assert ParseFixed10(num(v.y)) == Some(v.y);
    assert ParseFixed10(num(v.z)) == Some(v.z);
    ReadTokens(AtomLine(num, element, v, mode), element, num(v.x), num(v.y), num(v.z), Flag(mode), v);
  }

  lemma ReadTokens(line: string, element: string, nx: string, ny: string, nz: string, f: string, v: Vec3)
    requires Split(line) == [element, nx, f, ny, f, nz, f]
    requires ParseFixed10(nx) == Some(v.x) && ParseFixed10(ny) == Some(v.y) && ParseFixed10(nz) == Some(v.z)
    ensures ReadAtomLine(line) == Some(AtomEntry(element, v, [f, f, f]))
  {
  }

  lemma ReadAtomLinesCons(l: string, rest: seq<string>, a: AtomEntry, es: seq<AtomEntry>)
    requires ReadAtomLine(l) == Some(a)
    requires ReadAtomLines(rest) == Some(es)
    ensures ReadAtomLines([l] + rest) == Some([a] + es)
  {
    assert ([l] + rest)[1..] == rest;
  }

  lemma {:induction false} ReadAtomLinesRoundTrip(num: int -> string, coords: seq<Vec3>, species: seq<string>, mode: Mode)
    requires OneToken(num) && ReadsBack(num)
    requires |species| <= |coords|
    requires forall i :: 0 <= i < |species| ==> Word(species[i])
    ensures ReadAtomLines(AtomLines(num, coords, species, mode)) == Some(Entries(coords, species, mode))
    decreases |species|
  {
    if species == [] {
      assert AtomLines(num, coords, species, mode) == [];
    } else {
      var a := AtomEntry(species[0], coords[0], [Flag(mode), Flag(mode), Flag(mode)]);
      ReadAtomLineRoundTrip(num, species[0], coords[0], mode);
      ReadAtomLinesRoundTrip(num, coords[1..], species[1..], mode);
      ReadAtomLinesCons(AtomLine(num, species[0], coords[0], mode), AtomLines(num, coords[1..], species[1..], mode),
                        a, Entries(coords[1..], species[1..], mode));
    }
  }

  /** A text whose lines are a keyword line, two empty lines and records
      reads as a deck of those keywords and those records. */
  lemma ReadDeckLines(text: string, k: string, ls: seq<string>, es: seq<AtomEntry>)
    requires SplitLines(text) == [k, "", ""] + ls
    requires ReadAtomLines(ls) == Some(es)
    ensures ReadInput(text) == Some(Deck(k, es))
  {
    assert SplitLines(text)[3..] == ls;
  }

  /** Reading a written deck back gives the keywords, and for every label in
      order its element, its coordinates and three copies of the mode's
      flag; no record is lost or added. */
  lemma WriteInputRoundTrip(num: int -> string, coords: seq<Vec3>, species: seq<string>, methodName: string, mode: Mode)
    requires OneToken(num) && ReadsBack(num)
    requires |species| <= |coords|
    requires '\n' !in methodName
    requires forall i :: 0 <= i < |species| ==> Word(species[i])
    ensures ReadInput(WriteInput(num, coords, species, methodName, mode))
         == Some(Deck(Keywords(methodName, mode), Entries(coords, species, mode)))
  {
    forall i | 0 <= i < |species| {
      WordNoNewline(species[i]);
    }
    WriteInputLines(num, coords, species, methodName, mode);
    ReadAtomLinesRoundTrip(num, coords, species, mode);
    ReadDeckLines(WriteInput(num, coords, species, methodName, mode), Keywords(methodName, mode),
                  AtomLines(num, coords, species, mode), Entries(coords, species, mode));
  }

  lemma Fixed10Word(c: int)
    ensures Word(Fixed10(c))
  {
    Fixed10Chars(c);
  }

  /** `%.10f` prints one token per coordinate and reads back exactly. */
  lemma Fixed10Printer()
    ensures OneToken(Fixed10) && ReadsBack(Fixed10)
  {
    forall c: int
      ensures Word(Fixed10(c)) && ParseFixed10(Fixed10(c)) == Some(c)
    {
      Fixed10Word(c);
      Fixed10RoundTrip(c);
    }
  }

  /** The keyword lines of the two decks. */
  lemma KeywordsOf(methodName: string)
    ensures Keywords(methodName, EnergyOnly) == methodName + " NOSYM 1SCF"
    ensures Keywords(methodName, WithGradients) == methodName + " NOSYM 1SCF GRADIENTS"
  {
  }

  /** The energy deck reads back as the keywords `<method> NOSYM 1SCF` and
      every atom, in order, with its label, its coordinates and the flags
      `0 0 0`. */
  lemma WriteEnergyRoundTrip(coords: seq<Vec3>, species: seq<string>, methodName: string)
    requires |species| <= |coords|
    requires '\n' !in methodName
    requires forall i :: 0 <= i < |species| ==> Word(species[i])
    ensures ReadInput(WriteEnergy(coords, species, methodName))
         == Some(Deck(methodName + " NOSYM 1SCF", Entries(coords, species, EnergyOnly)))
    ensures forall i :: 0 <= i < |species| ==> Entries(coords, species, EnergyOnly)[i].flags == ["0", "0", "0"]
  {
    Fixed10Printer();
    KeywordsOf(methodName);
    WriteInputRoundTrip(Fixed10, coords, species, methodName, EnergyOnly);
  }

  /** The gradient deck reads back as the keywords
      `<method> NOSYM 1SCF GRADIENTS` and the same atoms with the flags
      `1 1 1`. */
  lemma WriteGradientRoundTrip(coords: seq<Vec3>, species: seq<string>, methodName: string)
    requires |species| <= |coords|
    requires '\n' !in methodName
    requires forall i :: 0 <= i < |species| ==> Word(species[i])
    ensures ReadInput(WriteGradient(coords, species, methodName))
         == Some(Deck(methodName + " NOSYM 1SCF GRADIENTS", Entries(coords, species, WithGradients)))
    ensures forall i :: 0 <= i < |species| ==> Entries(coords, species, WithGradients)[i].flags == ["1", "1", "1"]
  {
    Fixed10Printer();
    KeywordsOf(methodName);
    WriteInputRoundTrip(Fixed10, coords, species, methodName, WithGradients);
  }
}

=== FILE: job.dfy ===
/**
  The three files of one MOPAC run in `get_energy` and `get_gradient`
  (pymopac/mopac.py): the input deck, the output listing and the archive
  share one random stem and differ only in their extension.
 */
module MopacJob {

  datatype JobFiles = JobFiles(input: string, output: string, archive: string)

  /** `"%s.mop"`, `"%s.out"` and `"%s.arc"` of one stem. */
  function Files(stem: string): (f: JobFiles)
    ensures |f.input| == |f.output| == |f.archive| == |stem| + 4
    ensures f.input[..|stem|] == f.output[..|stem|] == f.archive[..|stem|] == stem
  {
    JobFiles(stem + ".mop", stem + ".out", stem + ".arc")
  }

  /** The names of one run's files. */
  function Names(f: JobFiles): set<string> {
    {f.input, f.output, f.archive}
  }

  /** One run never writes the same file twice. */
  lemma FilesDistinct(stem: string)
    ensures var f := Files(stem); f.input != f.output && f.input != f.archive && f.output != f.archive
  {
    var f := Files(stem);
    assert f.input[|stem| + 1] != f.output[|stem| + 1];
    assert f.input[|stem| + 1] != f.archive[|stem| + 1];
    assert f.output[|stem| + 1] != f.archive[|stem| + 1];
  }

  /** Every file name of a run gives back its stem. */
  lemma StemOfFile(stem: string, name: string)
    requires name in Names(Files(stem))
    ensures |name| >= 4 && name[..|name| - 4] == stem
  {
  }

  /** Runs with different stems touch disjoint sets of files, so deleting
      one run's files never removes another's. */
  lemma FilesDisjoint(stem1: string, stem2: string)
    requires stem1 != stem2
    ensures Names(Files(stem1)) !! Names(Files(stem2))
  {
    forall name | name in Names(Files(stem1)) && name in Names(Files(stem2))
      ensures false
    {
      StemOfFile(stem1, name);
      StemOfFile(stem2, name);
    }
  }
}

=== FILE: numerals.dfy ===
/**
  Decimal numerals as the MOPAC driver writes and reads them: the
  `%.10f` rendering of a coordinate, and Python's `int()` applied to a
  whitespace-free token.

  A coordinate is modelled as an integer count of 1e-10 angstrom, which is
  the value `%.10f` prints after rounding; binary floating point itself is
  not modelled.
 */
module Numerals {
  import opened Options

  predicate IsDigit(c: char) {
    '0' <= c <= '9'
  }

  predicate AllDigits(s: string) {
    forall k :: 0 <= k < |s| ==> IsDigit(s[k])
  }

  function DigitChar(d: nat): (c: char)
    requires d < 10
    ensures IsDigit(c)
  {
    ('0' as int + d) as char
  }

  function DigitValue(c: char): (d: nat)
    requires IsDigit(c)
    ensures d < 10
    ensures DigitChar(d) == c
  {
    c as int - '0' as int
  }

  /** The decimal numeral of `n`, without leading zeros. */
  function Digits(n: nat): (s: string)
    ensures |s| > 0
    ensures AllDigits(s)
    ensures |s| > 1 ==> s[0] != '0'
    decreases n
  {
    if n < 10 then [DigitChar(n)] else Digits(n / 10) + [DigitChar(n % 10)]
  }

  /** The value of a numeral; leading zeros are allowed. */
  function ValueOf(s: string): nat
    requires AllDigits(s)
  {
    if s == [] then 0 else ValueOf(s[..|s| - 1]) * 10 + DigitValue(s[|s| - 1])
  }

  lemma {:induction false} ValueOfDigits(n: nat)
    ensures ValueOf(Digits(n)) == n
    decreases n
  {
    var s := Digits(n);
    if n >= 10 {
      assert s[..|s| - 1] == Digits(n / 10);
      ValueOfDigits(n / 10);
    }
  }

  function Pow10(k: nat): (p: nat)
    ensures p >= 1
  {
    if k == 0 then 1 else 10 * Pow10(k - 1)
  }

  lemma {:induction false} DigitsLength(n: nat, k: nat)
    requires k >= 1
    requires n < Pow10(k)
    ensures |Digits(n)| <= k
    decreases n
  {
    if n >= 10 {
      assert k >= 2;
      assert n / 10 < Pow10(k - 1);
      DigitsLength(n / 10, k - 1);
    }
  }

  function Zeros(k: int): (s: string)
    ensures |s| == (if k < 0 then 0 else k)
    ensures AllDigits(s)
  {
    if k <= 0 then "" else Zeros(k - 1) + "0"
  }

  lemma {:induction false} ValueOfLeadingZeros(k: nat, s: string)
    requires AllDigits(s)
    ensures ValueOf(Zeros(k) + s) == ValueOf(s)
    decreases |s|
  {
    var z := Zeros(k);
    if s == [] {
      assert z + s == z;
      ValueOfZeros(k);
    } else {
      var t := z + s;
      assert t[..|t| - 1] == z + s[..|s| - 1];
      ValueOfLeadingZeros(k, s[..|s| - 1]);
    }
  }

  lemma {:induction false} ValueOfZeros(k: nat)
    ensures ValueOf(Zeros(k)) == 0
    decreases k
  {
    if k > 0 {
      assert Zeros(k)[..k - 1] == Zeros(k - 1);
      ValueOfZeros(k - 1);
    }
  }

  /** 10^10: the number of coordinate units in one angstrom. */
  const Scale: nat := 10_000_000_000

  /** The ten fraction digits of `%.10f`: `f` zero-padded to width 10. */
  function FractionDigits(f: nat): (s: string)
    requires f < Scale
    ensures |s| == 10
    ensures AllDigits(s)
  {
    var d := Digits(f);
    DigitsLength(f, 10);
    Zeros(10 - |d|) + d
  }

  lemma ValueOfFractionDigits(f: nat)
    requires f < Scale
    ensures ValueOf(FractionDigits(f)) == f
  {
    DigitsLength(f, 10);
    ValueOfLeadingZeros(10 - |Digits(f)|, Digits(f));
    ValueOfDigits(f);
  }

  /** Python's `"%.10f" % x` for the value `m * 1e-10`: an optional minus
      sign, the integer part without leading zeros, a point and exactly ten
      fraction digits. */
  function Fixed10(m: int): (s: string)
    ensures |s| >= 12
    ensures s[|s| - 11] == '.'
    ensures (s[0] == '-') <==> m < 0
  {
    var a := if m < 0 then -m else m;
    (if m < 0 then "-" else "") + (Digits(a / Scale) + "." + FractionDigits(a % Scale))
  }

  /** Every character of the numeral is a digit, the sign or the point. */
  lemma Fixed10Chars(m: int)
    ensures forall k :: 0 <= k < |Fixed10(m)| ==> IsDigit(Fixed10(m)[k]) || Fixed10(m)[k] == '-' || Fixed10(m)[k] == '.'
  {
  }

  /** Reads back a numeral in exactly the shape `Fixed10` prints
      (`[-]digits.dddddddddd`), as a count of 1e-10 units. */
  function ParseFixed10(s: string): Option<int> {
    var neg := |s| > 0 && s[0] == '-';
    var body := if neg then s[1..] else s;
    if |body| < 12 || body[|body| - 11] != '.' then None
    else
      var whole := body[..|body| - 11];
      var frac := body[|body| - 10..];
      if !AllDigits(whole) || !AllDigits(frac) then None
      else
        Some(Signed(neg, Units(ValueOf(whole), ValueOf(frac))))
  }

  /** A numeral in the printed shape parses to the value its parts denote. */
  lemma ParseFixed10Parts(neg: bool, whole: string, frac: string)
    requires |whole| > 0 && AllDigits(whole)
    requires |frac| == 10 && AllDigits(frac)
    ensures ParseFixed10((if neg then "-" else "") + (whole + "." + frac))
         == Some(Signed(neg, Units(ValueOf(whole), ValueOf(frac))))
  {
    var body := whole + "." + frac;
    var s := (if neg then "-" else "") + body;
    assert |s| > 0 && s[0] == '-' <==> neg by {
      if !neg {
        assert s[0] == whole[0];
      }
    }
    assert (if neg then s[1..] else s) == body;
    assert body[..|body| - 11] == whole;
    assert body[|body| - 10..] == frac;
  }

  function Signed(neg: bool, a: nat): int {
    if neg then -(a as int) else a
  }

  /** The count of 1e-10 units in `whole` angstrom plus `frac` units. */
  function Units(whole: nat, frac: nat): nat {
    whole * Scale + frac
  }

  /** `%.10f` loses nothing on the coordinate grid: reading the printed
      numeral back gives the value that was printed. */
  lemma Fixed10RoundTrip(m: int)
    ensures ParseFixed10(Fixed10(m)) == Some(m)
  {
    var a := if m < 0 then -m else m;
    ParseFixed10Parts(m < 0, Digits(a / Scale), FractionDigits(a % Scale));
    ValueOfDigits(a / Scale);
    ValueOfFractionDigits(a % Scale);
    assert Units(a / Scale, a % Scale) == a;
    assert Signed(m < 0, a) == m;
    assert Fixed10(m) == (if m < 0 then "-" else "") + (Digits(a / Scale) + "." + FractionDigits(a % Scale));
  }

  /** Python's `int(tok)` for a token without whitespace: an optional sign
      followed by at least one ASCII digit; anything else raises
      `ValueError`, modelled as `None`. */
  function ParseInt(tok: string): (r: Option<int>)
    ensures r.Some? ==> |tok| > 0 && IsDigit(tok[|tok| - 1])
    ensures r.Some? ==> forall k :: 1 <= k < |tok| ==> IsDigit(tok[k])
    ensures |tok| > 0 && AllDigits(tok) ==> r == Some(ValueOf(tok))
    ensures |tok| > 1 && tok[0] == '-' && AllDigits(tok[1..]) ==> r == Some(-(ValueOf(tok[1..]) as int))
    ensures |tok| > 1 && tok[0] == '+' && AllDigits(tok[1..]) ==> r == Some(ValueOf(tok[1..]))
    ensures r.Some? <==> || (|tok| > 0 && AllDigits(tok))
                         || (|tok| > 1 && (tok[0] == '-' || tok[0] == '+') && AllDigits(tok[1..]))
  {
    var signed := |tok| > 0 && (tok[0] == '-' || tok[0] == '+');
    var body := if signed then tok[1..] else tok;
    if body == [] || !AllDigits(body) then None
    else
      var v: int := ValueOf(body);
      Some(if signed && tok[0] == '-' then -v else v)
  }

  /** `int()` reads back the numeral of any integer, with `-` for negatives. */
  lemma ParseIntNumeral(n: int)
    ensures ParseInt(if n < 0 then "-" + Digits(-n) else Digits(n)) == Some(n)
  {
    if n < 0 {
      var t := "-" + Digits(-n);
      assert t[1..] == Digits(-n);
      ValueOfDigits(-n);
    } else {
      ValueOfDigits(n);
    }
  }
}

=== FILE: options.dfy ===
/** The optional-value datatype shared by the text, numeral and protocol modules. */
module Options {

  datatype Option<+T> = None | Some(value: T)
}

=== FILE: output.dfy ===
/**
  Reading a MOPAC output file as `read_energy` and `read_gradient`
  (pymopac/mopac.py) do: the heat of formation from the first
  `FINAL HEAT OF FORMATION` line, the atom count from the last
  `Empirical Formula` line before it, and the Cartesian gradient from the
  rows after the gradient table header.

  The file is the list `readlines()` returns. Python's `float()` is the
  parameter `toFloat`; `int()` is `ParseInt`. The `exit()` after a failure
  message and the exceptions the source lets escape (an index past the end
  of a token list, a token `int()` or `float()` rejects, an unknown axis
  key, a gradient row outside the array) all end the read, and are the
  `Err` values of `Result`.
 */
module MopacOutput {
  import opened Options
  import opened Text
  import opened Numerals

  /** A Python float: a finite value, an infinity or NaN. */
  datatype Float = Finite(r: real) | PosInf | NegInf | NaN

  const Zero: Float := Finite(0.0)

  /** Python's `x > bound` for a float `x` and a finite bound: false for NaN
      and for negative infinity. */
  predicate Above(x: Float, bound: real) {
    match x
    case Finite(r) => r > bound
    case PosInf => true
    case _ => false
  }

  /** Python's comparison with a finite bound: a finite value compares by
      value, positive infinity is above every bound, and negative infinity
      and NaN are above none. */
  lemma AboveCompares(x: Float, bound: real)
    ensures x.Finite? ==> (Above(x, bound) <==> x.r > bound)
    ensures x == PosInf ==> Above(x, bound)
    ensures x == NegInf || x == NaN ==> !Above(x, bound)
  {
  }

  datatype Error =
    | BadEnergy        // "failed with bad energy", then exit()
    | MissingGradient  // "failed without gradient", then exit()
    | UnknownAxis      // KeyError from COMPONENT_INDEX
    | Malformed        // IndexError or ValueError

  datatype Result<+T> = Ok(value: T) | Err(error: Error)

  const EnergyMarker: string := "FINAL HEAT OF FORMATION"
  const FormulaMarker: string := "Empirical Formula"
  const GradientHeader: string := "PARAMETER     ATOM    TYPE            VALUE       GRADIENT"

  /** 1e20: the energy held until a marker line is found. */
  const Sentinel: real := 100_000_000_000_000_000_000.0

  /** 1e19: any energy above it is a failed calculation. */
  const Threshold: real := 10_000_000_000_000_000_000.0

  // ---------------------------------------------------------------------
  // Axes

  /** The key of axis `c` in `COMPONENT_INDEX`. */
  function AxisName(c: nat): string
    requires c < 3
  {
    if c == 0 then "X" else if c == 1 then "Y" else "Z"
  }

  /** `COMPONENT_INDEX[axis]`; `None` is the `KeyError`. */
  function ComponentIndex(axis: string): (r: Option<nat>)
    ensures r.Some? ==> r.value < 3 && AxisName(r.value) == axis
  {
    if axis == "X" then Some(0)
    else if axis == "Y" then Some(1)
    else if axis == "Z" then Some(2)
    else None
  }

  /** Every axis name is a key, and it maps back to its own column. */
  lemma ComponentIndexOfAxis(c: nat)
    requires c < 3
    ensures ComponentIndex(AxisName(c)) == Some(c)
  {
  }

  // ---------------------------------------------------------------------
  // Finding marker lines

  /** Line `i` is the first line containing `m`. */
  predicate FirstAt(lines: seq<string>, m: string, i: int) {
    && 0 <= i < |lines|
    && Contains(lines[i], m)
    && forall k :: 0 <= k < i ==> !Contains(lines[k], m)
  }

  /** The index of the first line containing `m`, as the `for ... break`
      loops find it. */
  function FirstMatch(lines: seq<string>, m: string): (r: Option<nat>)
    ensures r.Some? ==> FirstAt(lines, m, r.value)
    ensures r.None? ==> forall k :: 0 <= k < |lines| ==> !Contains(lines[k], m)
    decreases |lines|
  {
    if lines == [] then None
    else if Contains(lines[0], m) then Some(0)
    else
      match FirstMatch(lines[1..], m)
      case None => None
      case Some(i) =>
        assert forall k :: 1 <= k < i + 1 ==> lines[k] == lines[1..][k - 1];
        Some(i + 1)
  }

  /** There is only one first line. */
  lemma FirstAtUnique(lines: seq<string>, m: string, i: int, j: int)
    requires FirstAt(lines, m, i) && FirstAt(lines, m, j)
    ensures i == j
  {
  }

  /** Lines after the first match cannot move it. */
  lemma FirstMatchAppend(lines: seq<string>, more: seq<string>, m: string)
    requires FirstMatch(lines, m).Some?
    ensures FirstMatch(lines + more, m) == FirstMatch(lines, m)
  {
    var i := FirstMatch(lines, m).value;
    assert (lines + more)[i] == lines[i];
    assert FirstAt(lines + more, m, i);
    FirstAtUnique(lines + more, m, i, FirstMatch(lines + more, m).value);
  }

  // ---------------------------------------------------------------------
  // The energy

  /** `float(tokens[k])`. */
  function TokenFloat(toFloat: string -> Option<Float>, tokens: seq<string>, k: nat): (r: Result<Float>)
    ensures r.Ok? <==> k < |tokens| && toFloat(tokens[k]).Some?
    ensures r.Ok? ==> toFloat(tokens[k]) == Some(r.value)
    ensures r.Err? ==> r.error == Malformed
  {
    if k < |tokens| then
      match toFloat(tokens[k])
      case Some(x) => Ok(x)
      case None => Err(Malformed)
    else Err(Malformed)
  }

  /** The energy on a marker line: its sixth token. */
  function EnergyOf(toFloat: string -> Option<Float>, line: string): (r: Result<Float>)
    ensures r.Ok? <==> |Split(line)| > 5 && toFloat(Split(line)[5]).Some?
    ensures r.Ok? ==> toFloat(Split(line)[5]) == Some(r.value)
    ensures r.Err? ==> r.error == Malformed
  {
    TokenFloat(toFloat, Split(line), 5)
  }

  /** `read_energy`: the sixth token of the first marker line; the
      sentinel, and so a failure, when there is none; a failure when the
      value is above 1e19. */
  function ReadEnergy(toFloat: string -> Option<Float>, lines: seq<string>): (r: Result<Float>)
    ensures r.Ok? ==> !Above(r.value, Threshold)
    ensures r.Ok? ==> exists i :: FirstAt(lines, EnergyMarker, i) && EnergyOf(toFloat, lines[i]) == Ok(r.value)
    ensures FirstMatch(lines, EnergyMarker).None? ==> r == Err(BadEnergy)
    ensures FirstMatch(lines, EnergyMarker).Some? && EnergyOf(toFloat, lines[FirstMatch(lines, EnergyMarker).value]).Err?
            ==> r == Err(Malformed)
    ensures r.Err? ==> r.error in {BadEnergy, Malformed}
  {
    var energy :=
      match FirstMatch(lines, EnergyMarker)
      case None => Ok(Finite(Sentinel))
      case Some(i) => EnergyOf(toFloat, lines[i]);
    match energy
    case Err(e) => Err(e)
    case Ok(x) => if Above(x, Threshold) then Err(BadEnergy) else Ok(x)
  }

  /** Once a marker line has been read, later lines never change the
      result. */
  lemma ReadEnergyIgnoresLater(toFloat: string -> Option<Float>, lines: seq<string>, more: seq<string>)
    requires FirstMatch(lines, EnergyMarker).Some?
    ensures ReadEnergy(toFloat, lines + more) == ReadEnergy(toFloat, lines)
  {
    var i := FirstMatch(lines, EnergyMarker).value;
    FirstMatchAppend(lines, more, EnergyMarker);
    assert (lines + more)[i] == lines[i];
  }

  /** A readable energy at most 1e19 on the first marker line is the
      result, whatever else the file holds. */
  lemma ReadEnergyFirstLine(toFloat: string -> Option<Float>, lines: seq<string>, i: nat, x: Float)
    requires FirstAt(lines, EnergyMarker, i)
    requires EnergyOf(toFloat, lines[i]) == Ok(x)
    ensures ReadEnergy(toFloat, lines) == if Above(x, Threshold) then Err(BadEnergy) else Ok(x)
  {
    FirstAtUnique(lines, EnergyMarker, i, FirstMatch(lines, EnergyMarker).value);
  }

  // ---------------------------------------------------------------------
  // The first loop of read_gradient

  /** What the first loop of `read_gradient` leaves behind. */
  datatype Prologue = Prologue(atoms: int, energy: Float)

  /** `int(tokens[-2])` on a formula line. */
  function AtomCount(line: string): (r: Result<int>)
    ensures r.Ok? <==> |Split(line)| >= 2 && ParseInt(Split(line)[|Split(line)| - 2]).Some?
    ensures r.Ok? ==> Some(r.value) == ParseInt(Split(line)[|Split(line)| - 2])
    ensures r.Err? ==> r.error == Malformed
  {
    var t := Split(line);
    if |t| < 2 then Err(Malformed)
    else
      match ParseInt(t[|t| - 2])
      case Some(n) => Ok(n)
      case None => Err(Malformed)
  }

  /** The loop over the lines: a formula line sets the atom count, then a
      marker line on the same line sets the energy and stops the loop. */
  function ScanPrologue(toFloat: string -> Option<Float>, lines: seq<string>, atoms: int): (r: Result<Prologue>)
    ensures r.Err? ==> r.error == Malformed
    decreases |lines|
  {
    if lines == [] then Ok(Prologue(atoms, Finite(Sentinel)))
    else
      var counted := if Contains(lines[0], FormulaMarker) then AtomCount(lines[0]) else Ok(atoms);
      match counted
      case Err(e) => Err(e)
      case Ok(n) =>
        if Contains(lines[0], EnergyMarker) then
          match EnergyOf(toFloat, lines[0])
          case Err(e) => Err(e)
          case Ok(x) => Ok(Prologue(n, x))
        else ScanPrologue(toFloat, lines[1..], n)
  }

  /** The number of lines the first loop looks at: up to and including the
      first marker line, or all of them. */
  function Scope(lines: seq<string>): (n: nat)
    ensures n <= |lines|
  {
    match FirstMatch(lines, EnergyMarker)
    case Some(i) => i + 1
    case None => |lines|
  }

  lemma ScopeCons(lines: seq<string>)
    requires |lines| > 0 && !Contains(lines[0], EnergyMarker)
    ensures Scope(lines) == Scope(lines[1..]) + 1
  {
  }

  /** The loop's energy is the sixth token of the first marker line, or the
      sentinel when there is none. */
  lemma {:induction false} PrologueEnergy(toFloat: string -> Option<Float>, lines: seq<string>, atoms: int)
    requires ScanPrologue(toFloat, lines, atoms).Ok?
    ensures var e := ScanPrologue(toFloat, lines, atoms).value.energy;
            match FirstMatch(lines, EnergyMarker)
            case None => e == Finite(Sentinel)
            case Some(i) => EnergyOf(toFloat, lines[i]) == Ok(e)
    decreases |lines|
  {
    if lines != [] && !Contains(lines[0], EnergyMarker) {
      var n := if Contains(lines[0], FormulaMarker) then AtomCount(lines[0]).value else atoms;
      assert ScanPrologue(toFloat, lines, atoms) == ScanPrologue(toFloat, lines[1..], n);
      PrologueEnergy(toFloat, lines[1..], n);
      match FirstMatch(lines[1..], EnergyMarker)
      case None =>
        assert FirstMatch(lines, EnergyMarker).None?;
      case Some(i) =>
        assert FirstMatch(lines, EnergyMarker) == Some(i + 1);
        assert lines[i + 1] == lines[1..][i];
    }
  }

  /** The atom count is read from the last formula line at or before the
      first marker line. */
  lemma {:induction false} PrologueAtoms(toFloat: string -> Option<Float>, lines: seq<string>, atoms: int, j: nat)
    requires ScanPrologue(toFloat, lines, atoms).Ok?
    requires j < Scope(lines) && Contains(lines[j], FormulaMarker)
    requires forall k :: j < k < Scope(lines) ==> !Contains(lines[k], FormulaMarker)
    ensures AtomCount(lines[j]) == Ok(ScanPrologue(toFloat, lines, atoms).value.atoms)
    decreases |lines|
  {
    if j > 0 {
      assert !Contains(lines[0], EnergyMarker);
      ScopeCons(lines);
      var n := if Contains(lines[0], FormulaMarker) then AtomCount(lines[0]).value else atoms;
      assert ScanPrologue(toFloat, lines, atoms) == ScanPrologue(toFloat, lines[1..], n);
      forall k | j - 1 < k < Scope(lines[1..])
        ensures !Contains(lines[1..][k], FormulaMarker)
      {
        assert lines[1..][k] == lines[k + 1];
      }
      assert lines[1..][j - 1] == lines[j];
      PrologueAtoms(toFloat, lines[1..], n, j - 1);
    } else if !Contains(lines[0], EnergyMarker) {
      ScopeCons(lines);
      forall k | 0 <= k < Scope(lines[1..])
        ensures !Contains(lines[1..][k], FormulaMarker)
      {
        assert lines[1..][k] == lines[k + 1];
      }
      PrologueNoFormula(toFloat, lines[1..], AtomCount(lines[0]).value);
    }
  }

  /** Without a formula line in scope the count keeps its initial value. */
  lemma {:induction false} PrologueNoFormula(toFloat: string -> Option<Float>, lines: seq<string>, atoms: int)
    requires ScanPrologue(toFloat, lines, atoms).Ok?
    requires forall k :: 0 <= k < Scope(lines) ==> !Contains(lines[k], FormulaMarker)
    ensures ScanPrologue(toFloat, lines, atoms).value.atoms == atoms
    decreases |lines|
  {
    if lines != [] && !Contains(lines[0], EnergyMarker) {
      ScopeCons(lines);
      forall k | 0 <= k < Scope(lines[1..])
        ensures !Contains(lines[1..][k], FormulaMarker)
      {
        assert lines[1..][k] == lines[k + 1];
      }
      PrologueNoFormula(toFloat, lines[1..], atoms);
    }
  }

  /** Every formula line the first loop looks at holds a readable count. */
  predicate FormulasReadable(lines: seq<string>) {
    forall k :: 0 <= k < Scope(lines) && Contains(lines[k], FormulaMarker) ==> AtomCount(lines[k]).Ok?
  }

  /** The first marker line, if there is one, holds a readable energy. */
  predicate MarkerReadable(toFloat: string -> Option<Float>, lines: seq<string>) {
    FirstMatch(lines, EnergyMarker).Some? ==> EnergyOf(toFloat, lines[FirstMatch(lines, EnergyMarker).value]).Ok?
  }

  /** The first loop succeeds exactly when every formula line it reaches and
      the marker line it stops at can be read. */
  lemma {:induction false} ScanPrologueOk(toFloat: string -> Option<Float>, lines: seq<string>, atoms: int)
    ensures ScanPrologue(toFloat, lines, atoms).Ok? <==> FormulasReadable(lines) && MarkerReadable(toFloat, lines)
    decreases |lines|
  {
    if lines != [] {
      if Contains(lines[0], FormulaMarker) && AtomCount(lines[0]).Err? {
        assert 0 < Scope(lines);
      } else if Contains(lines[0], EnergyMarker) {
        assert FirstMatch(lines, EnergyMarker) == Some(0);
      } else {
        var n := if Contains(lines[0], FormulaMarker) then AtomCount(lines[0]).value else atoms;
        assert ScanPrologue(toFloat, lines, atoms) == ScanPrologue(toFloat, lines[1..], n);
        ScanPrologueOk(toFloat, lines[1..], n);
        ScopeCons(lines);
        FormulasReadableCons(lines);
        MarkerReadableCons(toFloat, lines);
      }
    }
  }

  lemma FormulasReadableCons(lines: seq<string>)
    requires |lines| > 0 && !Contains(lines[0], EnergyMarker)
    requires Contains(lines[0], FormulaMarker) ==> AtomCount(lines[0]).Ok?
    ensures FormulasReadable(lines) <==> FormulasReadable(lines[1..])
  {
    var rest := lines[1..];
    ScopeCons(lines);
    if FormulasReadable(rest) {
      forall k | 0 < k < Scope(lines) && Contains(lines[k], FormulaMarker)
        ensures AtomCount(lines[k]).Ok?
      {
        assert lines[k] == rest[k - 1];
      }
    }
    if FormulasReadable(lines) {
      forall k | 0 <= k < Scope(rest) && Contains(rest[k], FormulaMarker)
        ensures AtomCount(rest[k]).Ok?
      {
        assert rest[k] == lines[k + 1];
      }
    }
  }

  lemma MarkerReadableCons(toFloat: string -> Option<Float>, lines: seq<string>)
    requires |lines| > 0 && !Contains(lines[0], EnergyMarker)
    ensures MarkerReadable(toFloat, lines) <==> MarkerReadable(toFloat, lines[1..])
  {
    match FirstMatch(lines[1..], EnergyMarker)
    case None =>
    case Some(i) =>
      assert FirstMatch(lines, EnergyMarker) == Some(i + 1);
      assert lines[i + 1] == lines[1..][i];
  }

  /** An accepted energy was read from the first marker line. */
  lemma ReadEnergyMarker(toFloat: string -> Option<Float>, lines: seq<string>)
    requires ReadEnergy(toFloat, lines).Ok?
    ensures FirstMatch(lines, EnergyMarker).Some? && MarkerReadable(toFloat, lines)
  {
    var i :| FirstAt(lines, EnergyMarker, i) && EnergyOf(toFloat, lines[i]) == Ok(ReadEnergy(toFloat, lines).value);
    FirstAtUnique(lines, EnergyMarker, i, FirstMatch(lines, EnergyMarker).value);
  }

  // ---------------------------------------------------------------------
  // The gradient table

  /** One table row as the second loop uses it: the cell it sets and the
      value it stores there. */
  datatype Write = Write(atom: nat, axis: nat, value: Float)

  /** One eight-token row of an `n`-atom table, in the source's order:
      `int(tokens[1]) - 1`, then `COMPONENT_INDEX[tokens[4]]`, then
      `float(tokens[6])`, then the NumPy index, where an atom index in
      `[-n, 0)` counts from the end. */
  function ParseRow(toFloat: string -> Option<Float>, t: seq<string>, n: nat): (r: Result<Write>)
    requires |t| == 8
    ensures r.Ok? ==> r.value.atom < n && r.value.axis < 3
    ensures r.Ok? ==> ParseInt(t[1]).Some? && -(n as int) <= ParseInt(t[1]).value - 1 < n
    ensures r.Ok? && ParseInt(t[1]).value >= 1 ==> r.value.atom == ParseInt(t[1]).value - 1
    ensures r.Ok? && ParseInt(t[1]).value < 1 ==> r.value.atom == ParseInt(t[1]).value - 1 + n
    ensures r.Ok? ==> AxisName(r.value.axis) == t[4] && toFloat(t[6]) == Some(r.value.value)
    ensures ParseInt(t[1]).None? ==> r == Err(Malformed)
    ensures ParseInt(t[1]).Some? && ComponentIndex(t[4]).None? ==> r == Err(UnknownAxis)
    ensures ComponentIndex(t[4]).Some? && r.Err? ==> r.error == Malformed
    ensures r.Ok? <==> && ParseInt(t[1]).Some? && ComponentIndex(t[4]).Some? && toFloat(t[6]).Some?
                       && -(n as int) <= ParseInt(t[1]).value - 1 < n
    ensures r.Err? ==> r.error in {Malformed, UnknownAxis}
  {
    match ParseInt(t[1])
    case None => Err(Malformed)
    case Some(k) =>
      var id := k - 1;
      match ComponentIndex(t[4])
      case None => Err(UnknownAxis)
      case Some(c) =>
        match toFloat(t[6])
        case None => Err(Malformed)
        case Some(v) =>
          if id < -(n as int) || id >= n then Err(Malformed)
          else Ok(Write(if id < 0 then id + n else id, c, v))
  }

  /** `n` rows of three cells each. */
  predicate Shaped(g: seq<seq<Float>>, n: nat) {
    |g| == n && forall a :: 0 <= a < n ==> |g[a]| == 3
  }

  /** `np.zeros((n, 3))`. */
  function ZeroTable(n: nat): (g: seq<seq<Float>>)
    ensures Shaped(g, n)
    ensures forall a, c :: 0 <= a < n && 0 <= c < 3 ==> g[a][c] == Zero
  {
    if n == 0 then [] else ZeroTable(n - 1) + [[Zero, Zero, Zero]]
  }

  /** `grad[atom, axis] = value`: that cell changes, no other. */
  function Store(g: seq<seq<Float>>, w: Write): (r: seq<seq<Float>>)
    requires Shaped(g, |g|) && w.atom < |g| && w.axis < 3
    ensures Shaped(r, |g|)
    ensures r[w.atom][w.axis] == w.value
    ensures forall a, c :: 0 <= a < |g| && 0 <= c < 3 && (a != w.atom || c != w.axis) ==> r[a][c] == g[a][c]
  {
    g[w.atom := g[w.atom][w.axis := w.value]]
  }

  /** The token lists of the rows the second loop consumes: the lines up to
      the first one that does not split into exactly eight tokens. */
  function Table(lines: seq<string>): (rows: seq<seq<string>>)
    ensures |rows| <= |lines|
    ensures forall k :: 0 <= k < |rows| ==> |rows[k]| == 8 && rows[k] == Split(lines[k])
    ensures |rows| == |lines| || |Split(lines[|rows|])| != 8
    decreases |lines|
  {
    if lines == [] || |Split(lines[0])| != 8 then []
    else [Split(lines[0])] + Table(lines[1..])
  }

  /** The second loop of `read_gradient`, starting from the table `g`. */
  function FillRows(toFloat: string -> Option<Float>, lines: seq<string>, g: seq<seq<Float>>): (r: Result<seq<seq<Float>>>)
    requires Shaped(g, |g|)
    ensures r.Ok? ==> Shaped(r.value, |g|)
    ensures r.Err? ==> r.error in {Malformed, UnknownAxis}
    decreases |lines|
  {
    if lines == [] then Ok(g)
    else
      var t := Split(lines[0]);
      if |t| != 8 then Ok(g)
      else
        match ParseRow(toFloat, t, |g|)
        case Err(e) => Err(e)
        case Ok(w) => FillRows(toFloat, lines[1..], Store(g, w))
  }

  /** Row `t` sets cell (`a`, `c`). */
  predicate Targets(toFloat: string -> Option<Float>, t: seq<string>, n: nat, a: nat, c: nat)
    requires |t| == 8
  {
    var r := ParseRow(toFloat, t, n);
    r.Ok? && r.value.atom == a && r.value.axis == c
  }

  /** The value cell (`a`, `c`) ends up with, read from the last row
      backwards: the value of the last row that targets the cell, or `init`
      when none does. */
  function LastValue(toFloat: string -> Option<Float>, rows: seq<seq<string>>, n: nat, a: nat, c: nat, init: Float): Float
    requires forall k :: 0 <= k < |rows| ==> |rows[k]| == 8
    decreases |rows|
  {
    if rows == [] then init
    else
      var t := rows[|rows| - 1];
      if Targets(toFloat, t, n, a, c) then ParseRow(toFloat, t, n).value.value
      else LastValue(toFloat, rows[..|rows| - 1], n, a, c, init)
  }

  /** A cell no row targets keeps its initial value. */
  lemma {:induction false} LastValueUntouched(toFloat: string -> Option<Float>, rows: seq<seq<string>>, n: nat, a: nat, c: nat, init: Float)
    requires forall k :: 0 <= k < |rows| ==> |rows[k]| == 8
    requires forall k :: 0 <= k < |rows| ==> !Targets(toFloat, rows[k], n, a, c)
    ensures LastValue(toFloat, rows, n, a, c, init) == init
    decreases |rows|
  {
    if rows != [] {
      LastValueUntouched(toFloat, rows[..|rows| - 1], n, a, c, init);
    }
  }

  /** A cell holds the value of the last row that targets it: later rows
      overwrite earlier ones. */
  lemma {:induction false} LastValueLatest(toFloat: string -> Option<Float>, rows: seq<seq<string>>, n: nat, a: nat, c: nat, init: Float, k: nat)
    requires forall j :: 0 <= j < |rows| ==> |rows[j]| == 8
    requires k < |rows| && Targets(toFloat, rows[k], n, a, c)
    requires forall j :: k < j < |rows| ==> !Targets(toFloat, rows[j], n, a, c)
    ensures LastValue(toFloat, rows, n, a, c, init) == ParseRow(toFloat, rows[k], n).value.value
    decreases |rows|
  {
    if k < |rows| - 1 {
      LastValueLatest(toFloat, rows[..|rows| - 1], n, a, c, init, k);
    }
  }

  /** Reading backwards agrees with applying the first row and then the
      rest. */
  lemma {:induction false} LastValueCons(toFloat: string -> Option<Float>, t: seq<string>, rows: seq<seq<string>>, n: nat, a: nat, c: nat, init: Float)
    requires |t| == 8
    requires forall k :: 0 <= k < |rows| ==> |rows[k]| == 8
    ensures LastValue(toFloat, [t] + rows, n, a, c, init)
         == LastValue(toFloat, rows, n, a, c, if Targets(toFloat, t, n, a, c) then ParseRow(toFloat, t, n).value.value else init)
    decreases |rows|
  {
    var all := [t] + rows;
    if rows != [] {
      assert all[|all| - 1] == rows[|rows| - 1];
      assert all[..|all| - 1] == [t] + rows[..|rows| - 1];
      LastValueCons(toFloat, t, rows[..|rows| - 1], n, a, c, init);
    } else {
      assert all[..0] == [];
    }
  }

  /** Every row of `rows` is readable in an `n`-atom table. */
  predicate RowsParse(toFloat: string -> Option<Float>, rows: seq<seq<string>>, n: nat)
    requires forall k :: 0 <= k < |rows| ==> |rows[k]| == 8
  {
    forall k :: 0 <= k < |rows| ==> ParseRow(toFloat, rows[k], n).Ok?
  }

  lemma RowsParseCons(toFloat: string -> Option<Float>, t: seq<string>, rows: seq<seq<string>>, n: nat)
    requires |t| == 8
    requires forall k :: 0 <= k < |rows| ==> |rows[k]| == 8
    ensures RowsParse(toFloat, [t] + rows, n) <==> ParseRow(toFloat, t, n).Ok? && RowsParse(toFloat, rows, n)
  {
    var all := [t] + rows;
    assert all[0] == t;
    assert forall k :: 0 <= k < |rows| ==> all[k + 1] == rows[k];
  }

  /** The second loop succeeds exactly when every row it consumes parses. */
  lemma {:induction false} FillRowsOk(toFloat: string -> Option<Float>, lines: seq<string>, g: seq<seq<Float>>)
    requires Shaped(g, |g|)
    ensures FillRows(toFloat, lines, g).Ok? <==> RowsParse(toFloat, Table(lines), |g|)
    decreases |lines|
  {
    if lines != [] && |Split(lines[0])| == 8 {
      var t := Split(lines[0]);
      assert Table(lines) == [t] + Table(lines[1..]);
      RowsParseCons(toFloat, t, Table(lines[1..]), |g|);
      var r := ParseRow(toFloat, t, |g|);
      if r.Ok? {
        var g' := Store(g, r.value);
        assert |g'| == |g|;
        FillRowsOk(toFloat, lines[1..], g');
      }
    }
  }

  /** Every cell of a filled table holds the value of the last consumed row
      that targets it, or its initial value when none does. */
  lemma {:induction false} FillRowsCells(toFloat: string -> Option<Float>, lines: seq<string>, g: seq<seq<Float>>, a: nat, c: nat)
    requires Shaped(g, |g|)
    requires a < |g| && c < 3
    requires FillRows(toFloat, lines, g).Ok?
    ensures FillRows(toFloat, lines, g).value[a][c] == LastValue(toFloat, Table(lines), |g|, a, c, g[a][c])
    decreases |lines|
  {
    if lines == [] || |Split(lines[0])| != 8 {
      assert Table(lines) == [];
    } else {
      var t := Split(lines[0]);
      var w := ParseRow(toFloat, t, |g|).value;
      var g' := Store(g, w);
      FillRowsCells(toFloat, lines[1..], g', a, c);
      LastValueCons(toFloat, t, Table(lines[1..]), |g|, a, c, g[a][c]);
      assert Table(lines) == [t] + Table(lines[1..]);
    }
  }

  // ---------------------------------------------------------------------
  // read_gradient

  datatype Gradient = Gradient(energy: Float, grad: seq<seq<Float>>)

  /** `read_gradient`: the first loop, the energy check, the header search,
      the atom-count check, `np.zeros((atoms, 3))` (which rejects a
      negative count), then the second loop from the line after the
      header. */
  function ReadGradient(toFloat: string -> Option<Float>, lines: seq<string>): (r: Result<Gradient>)
    ensures r.Ok? ==> !Above(r.value.energy, Threshold) && Shaped(r.value.grad, |r.value.grad|)
    ensures FirstMatch(lines, GradientHeader).None? ==> r.Err?
    ensures r == Err(BadEnergy) ==>
              ScanPrologue(toFloat, lines, -1).Ok? && Above(ScanPrologue(toFloat, lines, -1).value.energy, Threshold)
    ensures r == Err(MissingGradient) ==>
              && ScanPrologue(toFloat, lines, -1).Ok?
              && (FirstMatch(lines, GradientHeader).None? || ScanPrologue(toFloat, lines, -1).value.atoms == -1)
  {
    match ScanPrologue(toFloat, lines, -1)
    case Err(e) => Err(e)
    case Ok(p) =>
      if Above(p.energy, Threshold) then Err(BadEnergy)
      else
        match FirstMatch(lines, GradientHeader)
        case None => Err(MissingGradient)
        case Some(h) =>
          if p.atoms == -1 then Err(MissingGradient)
          else if p.atoms < -1 then Err(Malformed)
          else
            match FillRows(toFloat, lines[h + 1..], ZeroTable(p.atoms))
            case Err(e) => Err(e)
            case Ok(g) => Ok(Gradient(p.energy, g))
  }

  /** What a successful read went through: a good prologue with a
      non-negative atom count, a header line, and a second loop that filled
      the zero table of that many atoms. */
  lemma GradientSteps(toFloat: string -> Option<Float>, lines: seq<string>)
    requires ReadGradient(toFloat, lines).Ok?
    ensures ScanPrologue(toFloat, lines, -1).Ok?
    ensures ScanPrologue(toFloat, lines, -1).value.atoms == |ReadGradient(toFloat, lines).value.grad|
    ensures FirstMatch(lines, GradientHeader).Some?
    ensures var h := FirstMatch(lines, GradientHeader).value;
            var z := ZeroTable(|ReadGradient(toFloat, lines).value.grad|);
            FillRows(toFloat, lines[h + 1..], z) == Ok(ReadGradient(toFloat, lines).value.grad)
  {
    var p := ScanPrologue(toFloat, lines, -1).value;
    var n: nat := p.atoms;
    var h := FirstMatch(lines, GradientHeader).value;
    var filled := FillRows(toFloat, lines[h + 1..], ZeroTable(n));
    assert filled.Ok? && ReadGradient(toFloat, lines).value.grad == filled.value;
    assert |filled.value| == n;
  }

  /** With a good prologue, the energy check agrees with `read_energy`. */
  lemma PrologueReadEnergy(toFloat: string -> Option<Float>, lines: seq<string>)
    requires ScanPrologue(toFloat, lines, -1).Ok?
    ensures var e := ScanPrologue(toFloat, lines, -1).value.energy;
            ReadEnergy(toFloat, lines) == if Above(e, Threshold) then Err(BadEnergy) else Ok(e)
  {
    PrologueEnergy(toFloat, lines, -1);
  }

  /** Both readers report the same energy. */
  lemma GradientEnergy(toFloat: string -> Option<Float>, lines: seq<string>)
    requires ReadGradient(toFloat, lines).Ok?
    ensures ReadEnergy(toFloat, lines) == Ok(ReadGradient(toFloat, lines).value.energy)
  {
    PrologueReadEnergy(toFloat, lines);
  }

  /** The energy is checked before the gradient: a missing gradient is only
      reported for a file whose energy `read_energy` accepts, and a file
      whose energy `read_energy` rejects is a bad energy whether or not it
      has a gradient table. */
  lemma EnergyBeforeGradient(toFloat: string -> Option<Float>, lines: seq<string>)
    ensures ReadGradient(toFloat, lines) == Err(MissingGradient) ==> ReadEnergy(toFloat, lines).Ok?
    ensures ScanPrologue(toFloat, lines, -1).Ok? && ReadEnergy(toFloat, lines).Err?
            ==> ReadGradient(toFloat, lines) == Err(BadEnergy)
  {
    if ScanPrologue(toFloat, lines, -1).Ok? {
      PrologueReadEnergy(toFloat, lines);
    }
  }

  /** A file whose formula lines can be read, whose energy is accepted and
      which has no gradient table header reports a missing gradient. */
  lemma NoHeaderMissingGradient(toFloat: string -> Option<Float>, lines: seq<string>)
    requires FirstMatch(lines, GradientHeader).None?
    requires FormulasReadable(lines)
    requires ReadEnergy(toFloat, lines).Ok?
    ensures ReadGradient(toFloat, lines) == Err(MissingGradient)
  {
    ReadEnergyMarker(toFloat, lines);
    ScanPrologueOk(toFloat, lines, -1);
    PrologueReadEnergy(toFloat, lines);
  }

  /** The table has one row per atom of the last formula line at or before
      the first energy line. */
  lemma GradientAtoms(toFloat: string -> Option<Float>, lines: seq<string>, j: nat)
    requires ReadGradient(toFloat, lines).Ok?
    requires j < Scope(lines) && Contains(lines[j], FormulaMarker)
    requires forall k :: j < k < Scope(lines) ==> !Contains(lines[k], FormulaMarker)
    ensures AtomCount(lines[j]) == Ok(|ReadGradient(toFloat, lines).value.grad|)
  {
    GradientSteps(toFloat, lines);
    PrologueAtoms(toFloat, lines, -1, j);
  }

  /** Without a formula line in scope there is no gradient, and once the
      energy is accepted the failure is a missing gradient. */
  lemma NoFormulaNoGradient(toFloat: string -> Option<Float>, lines: seq<string>)
    requires forall k :: 0 <= k < Scope(lines) ==> !Contains(lines[k], FormulaMarker)
    ensures ReadGradient(toFloat, lines).Err?
    ensures ReadEnergy(toFloat, lines).Ok? ==> ReadGradient(toFloat, lines) == Err(MissingGradient)
  {
    if ReadEnergy(toFloat, lines).Ok? {
      ReadEnergyMarker(toFloat, lines);
      ScanPrologueOk(toFloat, lines, -1);
    }
    if ScanPrologue(toFloat, lines, -1).Ok? {
      PrologueNoFormula(toFloat, lines, -1);
      PrologueReadEnergy(toFloat, lines);
    }
  }

  /** The rows of the gradient table: those right after the first header
      line, up to the first line that is not eight tokens. */
  function GradientRows(lines: seq<string>): seq<seq<string>>
    requires FirstMatch(lines, GradientHeader).Some?
  {
    Table(lines[FirstMatch(lines, GradientHeader).value + 1..])
  }

  /** Every row of the gradient table of a successful read was readable:
      an atom number, an axis, a value and an atom inside the table. */
  lemma GradientRowsParse(toFloat: string -> Option<Float>, lines: seq<string>)
    requires ReadGradient(toFloat, lines).Ok?
    ensures FirstMatch(lines, GradientHeader).Some?
    ensures var rows := GradientRows(lines);
            forall k :: 0 <= k < |rows| ==> ParseRow(toFloat, rows[k], |ReadGradient(toFloat, lines).value.grad|).Ok?
  {
    GradientSteps(toFloat, lines);
    var h := FirstMatch(lines, GradientHeader).value;
    var z := ZeroTable(|ReadGradient(toFloat, lines).value.grad|);
    FillRowsOk(toFloat, lines[h + 1..], z);
    assert GradientRows(lines) == Table(lines[h + 1..]);
  }

  /** Every gradient cell holds the value of the last table row that sets
      it, or 0 when no row does. */
  lemma GradientCells(toFloat: string -> Option<Float>, lines: seq<string>, a: nat, c: nat)
    requires ReadGradient(toFloat, lines).Ok?
    requires a < |ReadGradient(toFloat, lines).value.grad| && c < 3
    ensures FirstMatch(lines, GradientHeader).Some?
    ensures ReadGradient(toFloat, lines).value.grad[a][c]
         == LastValue(toFloat, GradientRows(lines), |ReadGradient(toFloat, lines).value.grad|, a, c, Zero)
  {
    GradientSteps(toFloat, lines);
    var h := FirstMatch(lines, GradientHeader).value;
    FillRowsCells(toFloat, lines[h + 1..], ZeroTable(|ReadGradient(toFloat, lines).value.grad|), a, c);
  }

  /** A table row with a readable atom number and an axis other than X, Y
      or Z makes the read fail. */
  lemma UnknownAxisFails(toFloat: string -> Option<Float>, lines: seq<string>, k: nat)
    requires FirstMatch(lines, GradientHeader).Some?
    requires k < |GradientRows(lines)|
    requires ParseInt(GradientRows(lines)[k][1]).Some? && ComponentIndex(GradientRows(lines)[k][4]).None?
    ensures ReadGradient(toFloat, lines).Err?
  {
    if ReadGradient(toFloat, lines).Ok? {
      GradientRowsParse(toFloat, lines);
      assert false;
    }
  }

  /** Line `j` is the last formula line the first loop reaches, and it
      states `n` atoms. */
  predicate CountedAt(lines: seq<string>, j: nat, n: int) {
    && j < Scope(lines)
    && Contains(lines[j], FormulaMarker)
    && (forall k :: j < k < Scope(lines) ==> !Contains(lines[k], FormulaMarker))
    && AtomCount(lines[j]) == Ok(n)
  }

  /** With readable formula lines and an accepted energy, the first loop
      ends with the count of the last formula line and that energy. */
  lemma GoodPrologue(toFloat: string -> Option<Float>, lines: seq<string>, j: nat, n: int)
    requires FormulasReadable(lines)
    requires ReadEnergy(toFloat, lines).Ok?
    requires CountedAt(lines, j, n)
    ensures ScanPrologue(toFloat, lines, -1) == Ok(Prologue(n, ReadEnergy(toFloat, lines).value))
    ensures !Above(ReadEnergy(toFloat, lines).value, Threshold)
  {
    ReadEnergyMarker(toFloat, lines);
    ScanPrologueOk(toFloat, lines, -1);
    PrologueAtoms(toFloat, lines, -1, j);
    PrologueReadEnergy(toFloat, lines);
  }

  /** A well-formed file yields a gradient: readable formula lines, an
      accepted energy, a non-negative count on the last formula line, a
      header, and table rows that all parse. The gradient then has that
      many rows and the energy is the one `read_energy` returns. */
  lemma ReadGradientOk(toFloat: string -> Option<Float>, lines: seq<string>, j: nat, n: nat)
    requires FormulasReadable(lines)
    requires ReadEnergy(toFloat, lines).Ok?
    requires CountedAt(lines, j, n)
    requires FirstMatch(lines, GradientHeader).Some?
    requires RowsParse(toFloat, GradientRows(lines), n)
    ensures ReadGradient(toFloat, lines).Ok?
    ensures ReadGradient(toFloat, lines).value.energy == ReadEnergy(toFloat, lines).value
    ensures |ReadGradient(toFloat, lines).value.grad| == n
  {
    GoodPrologue(toFloat, lines, j, n);
    var h := FirstMatch(lines, GradientHeader).value;
    assert GradientRows(lines) == Table(lines[h + 1..]);
    FillRowsOk(toFloat, lines[h + 1..], ZeroTable(n));
  }

  /** The second loop stops at the first row with an unknown axis, if the
      rows before it parse and its atom number is readable. */
  lemma {:induction false} FillRowsUnknownAxis(toFloat: string -> Option<Float>, lines: seq<string>, g: seq<seq<Float>>, k: nat)
    requires Shaped(g, |g|)
    requires k < |Table(lines)|
    requires forall i :: 0 <= i < k ==> ParseRow(toFloat, Table(lines)[i], |g|).Ok?
    requires ParseInt(Table(lines)[k][1]).Some? && ComponentIndex(Table(lines)[k][4]).None?
    ensures FillRows(toFloat, lines, g) == Err(UnknownAxis)
    decreases k
  {
    var t := Split(lines[0]);
    assert |t| == 8 && Table(lines) == [t] + Table(lines[1..]);
    assert Table(lines)[0] == t;
    if k == 0 {
      assert ParseRow(toFloat, t, |g|) == Err(UnknownAxis);
    } else {
      var w := ParseRow(toFloat, t, |g|).value;
      var g' := Store(g, w);
      assert |g'| == |g|;
      assert FillRows(toFloat, lines, g) == FillRows(toFloat, lines[1..], g');
      forall i | 0 <= i < k - 1
        ensures ParseRow(toFloat, Table(lines[1..])[i], |g'|).Ok?
      {
        assert Table(lines[1..])[i] == Table(lines)[i + 1];
      }
      assert Table(lines[1..])[k - 1] == Table(lines)[k];
      FillRowsUnknownAxis(toFloat, lines[1..], g', k - 1);
    }
  }

  /** In a file that would otherwise yield a gradient, the first table row
      with a readable atom number and an axis other than X, Y or Z makes the
      read fail with `UnknownAxis`. */
  lemma UnknownAxisError(toFloat: string -> Option<Float>, lines: seq<string>, j: nat, n: nat, k: nat)
    requires FormulasReadable(lines)
    requires ReadEnergy(toFloat, lines).Ok?
    requires CountedAt(lines, j, n)
    requires FirstMatch(lines, GradientHeader).Some?
    requires k < |GradientRows(lines)|
    requires forall i :: 0 <= i < k ==> ParseRow(toFloat, GradientRows(lines)[i], n).Ok?
    requires ParseInt(GradientRows(lines)[k][1]).Some? && ComponentIndex(GradientRows(lines)[k][4]).None?
    ensures ReadGradient(toFloat, lines) == Err(UnknownAxis)
  {
    GoodPrologue(toFloat, lines, j, n);
    var h := FirstMatch(lines, GradientHeader).value;
    assert GradientRows(lines) == Table(lines[h + 1..]);
    FillRowsUnknownAxis(toFloat, lines[h + 1..], ZeroTable(n), k);
  }

  /** Row `k` of `rows` has a readable atom number and an axis other than
      X, Y or Z. */
  predicate UnknownAxisAt(rows: seq<seq<string>>, k: int) {
    0 <= k < |rows| && |rows[k]| == 8 && ParseInt(rows[k][1]).Some? && ComponentIndex(rows[k][4]).None?
  }

  /** The second loop fails with `UnknownAxis` only at a table row that
      names an unknown axis. */
  lemma {:induction false} FillRowsUnknownAxisCause(toFloat: string -> Option<Float>, lines: seq<string>, g: seq<seq<Float>>)
    requires Shaped(g, |g|)
    requires FillRows(toFloat, lines, g) == Err(UnknownAxis)
    ensures exists k :: UnknownAxisAt(Table(lines), k)
    decreases |lines|
  {
    var t := Split(lines[0]);
    assert |t| == 8 && Table(lines) == [t] + Table(lines[1..]);
    match ParseRow(toFloat, t, |g|)
    case Err(e) =>
      assert UnknownAxisAt(Table(lines), 0);
    case Ok(w) =>
      var g' := Store(g, w);
      assert FillRows(toFloat, lines, g) == FillRows(toFloat, lines[1..], g');
      FillRowsUnknownAxisCause(toFloat, lines[1..], g');
      var k :| UnknownAxisAt(Table(lines[1..]), k);
      assert Table(lines)[k + 1] == Table(lines[1..])[k];
      assert UnknownAxisAt(Table(lines), k + 1);
  }

  /** `read_gradient` fails with `UnknownAxis` only when the file has a
      gradient header and a table row after it names an unknown axis. */
  lemma UnknownAxisCause(toFloat: string -> Option<Float>, lines: seq<string>)
    requires ReadGradient(toFloat, lines) == Err(UnknownAxis)
    ensures FirstMatch(lines, GradientHeader).Some?
    ensures exists k :: UnknownAxisAt(GradientRows(lines), k)
  {
    var p := ScanPrologue(toFloat, lines, -1).value;
    var h := FirstMatch(lines, GradientHeader).value;
    assert GradientRows(lines) == Table(lines[h + 1..]);
    FillRowsUnknownAxisCause(toFloat, lines[h + 1..], ZeroTable(p.atoms));
  }
}

=== FILE: text.dfy ===
/**
  The pieces of Python's `str` behaviour that the MOPAC driver relies on:
  `str.split()` with no argument, the substring test `marker in line`,
  the `%-2s` / `%20s` padding of `%` formatting, and splitting a text into
  lines on newline characters.
 */
module Text {

  /** The characters for which Python's `str.isspace()` holds; these are the
      separators of `str.split()` with no argument. */
  predicate IsSpace(c: char) {
    || c == ' '
    || ('\t' <= c <= '\r')
    || ('\U{1C}' <= c <= '\U{1F}')
    || c == '\U{85}'
    || c == '\U{A0}'
    || c == '\U{1680}'
    || ('\U{2000}' <= c <= '\U{200A}')
    || c == '\U{2028}'
    || c == '\U{2029}'
    || c == '\U{202F}'
    || c == '\U{205F}'
    || c == '\U{3000}'
  }

  /** A token as `str.split()` produces it: non-empty, without whitespace. */
  predicate Word(w: string) {
    |w| > 0 && forall k :: 0 <= k < |w| ==> !IsSpace(w[k])
  }

  lemma WordNoNewline(w: string)
    requires Word(w)
    ensures '\n' !in w
  {
    forall k | 0 <= k < |w|
      ensures w[k] != '\n'
    {
      assert !IsSpace(w[k]);
    }
  }

  predicate AllSpace(s: string) {
    forall k :: 0 <= k < |s| ==> IsSpace(s[k])
  }

  /** Length of the whitespace-free prefix of `s`. */
  function WordLength(s: string): (n: nat)
    ensures n <= |s|
    ensures forall k :: 0 <= k < n ==> !IsSpace(s[k])
    ensures n == |s| || IsSpace(s[n])
  {
    if s == [] || IsSpace(s[0]) then 0 else 1 + WordLength(s[1..])
  }

  /** Python's `s.split()`: the maximal runs of non-whitespace characters,
      in order; leading, trailing and repeated whitespace yields no token. */
  function Split(s: string): (r: seq<string>)
    ensures forall k :: 0 <= k < |r| ==> Word(r[k])
    decreases |s|
  {
    if s == [] then []
    else if IsSpace(s[0]) then Split(s[1..])
    else
      var n := WordLength(s);
      [s[..n]] + Split(s[n..])
  }

  lemma {:induction false} SplitSpaces(w: string, s: string)
    requires AllSpace(w)
    ensures Split(w + s) == Split(s)
    decreases |w|
  {
    if w != [] {
      assert IsSpace((w + s)[0]);
      assert (w + s)[1..] == w[1..] + s;
      assert Split(w + s) == Split(w[1..] + s);
      SplitSpaces(w[1..], s);
    } else {
      assert w + s == s;
    }
  }

  lemma {:induction false} WordLengthOfWord(w: string, s: string)
    requires forall k :: 0 <= k < |w| ==> !IsSpace(w[k])
    requires s == [] || IsSpace(s[0])
    ensures WordLength(w + s) == |w|
    decreases |w|
  {
    if w != [] {
      assert (w + s)[1..] == w[1..] + s;
      WordLengthOfWord(w[1..], s);
    }
  }

  /** A word followed by whitespace (or nothing) splits off as one token. */
  lemma SplitWord(w: string, s: string)
    requires Word(w)
    requires s == [] || IsSpace(s[0])
    ensures Split(w + s) == [w] + Split(s)
  {
    WordLengthOfWord(w, s);
    assert (w + s)[..|w|] == w;
    assert (w + s)[|w|..] == s;
  }

  /** Whitespace, a word, a space, a word, a space: two tokens, then
      whatever the rest splits into. */
  lemma SplitPaddedPair(pad: string, a: string, b: string, rest: string)
    requires AllSpace(pad) && Word(a) && Word(b)
    ensures Split(pad + (a + (" " + (b + (" " + rest))))) == [a, b] + Split(rest)
  {
    var t3 := " " + rest;
    var t2 := b + t3;
    var t1 := " " + t2;
    SplitSpaces(pad, a + t1);
    SplitWord(a, t1);
    SplitSpaces(" ", t2);
    SplitWord(b, t3);
    SplitSpaces(" ", rest);
    calc {
      Split(pad + (a + t1));
      [a] + Split(t1);
      [a] + Split(t2);
      [a] + ([b] + Split(t3));
      [a] + ([b] + Split(rest));
      [a, b] + Split(rest);
    }
  }

  /** A word, whitespace, a space: one token, then the rest's tokens. */
  lemma SplitWordPadded(w: string, pad: string, rest: string)
    requires Word(w) && AllSpace(pad)
    ensures Split(w + (pad + (" " + rest))) == [w] + Split(rest)
  {
    var ws := pad + " ";
    assert AllSpace(ws);
    assert pad + (" " + rest) == ws + rest;
    SplitWord(w, ws + rest);
    SplitSpaces(ws, rest);
  }

  /** A left-justified word followed by a space: one token, then the
      rest's tokens. */
  lemma SplitRightPadded(p: string, w: string, rest: string)
    requires Word(w) && |w| <= |p| && p[..|w|] == w && AllSpace(p[|w|..])
    ensures Split(p + (" " + rest)) == [w] + Split(rest)
  {
    var pad := p[|w|..];
    assert p == w + pad;
    assert p + (" " + rest) == w + (pad + (" " + rest));
    SplitWordPadded(w, pad, rest);
  }

  /** A right-justified word, a space, a word and a space: two tokens, then
      the rest's tokens. */
  lemma SplitLeftPadded(p: string, w: string, flag: string, rest: string)
    requires Word(w) && Word(flag)
    requires |w| <= |p| && p[|p| - |w|..] == w && AllSpace(p[..|p| - |w|])
    ensures Split((p + (" " + (flag + " "))) + rest) == [w, flag] + Split(rest)
  {
    var pad := p[..|p| - |w|];
    assert p == pad + w;
    assert (p + (" " + (flag + " "))) + rest == pad + (w + (" " + (flag + (" " + rest))));
    SplitPaddedPair(pad, w, flag, rest);
  }

  /** Regrouping a concatenation of four pieces. */
  lemma Regroup<T>(a: seq<T>, b: seq<T>, c: seq<T>, d: seq<T>)
    ensures a + (b + c) + d == (a + b) + (c + d)
  {
  }

  lemma SliceOfAppend<T>(a: seq<T>, b: seq<T>, i: nat, j: nat)
    requires i <= j <= |a|
    ensures (a + b)[i..j] == a[i..j]
  {
  }

  lemma LastOfAppend<T>(a: seq<T>, b: seq<T>)
    requires |b| > 0
    ensures (a + b)[|a + b| - 1] == b[|b| - 1]
  {
  }

  lemma ConsThree<T>(a: T, b: T, c: T, xs: seq<T>)
    ensures [a] + ([b] + ([c] + xs)) == [a, b, c] + xs
  {
  }

  /** `sep + r0 + sep + r1 + ...`: each element of `rs` preceded by `sep`. */
  function Prefixed(rs: seq<string>, sep: char): (r: string)
    ensures |rs| > 0 ==> |r| > 0 && r[0] == sep
  {
    if rs == [] then "" else [sep] + rs[0] + Prefixed(rs[1..], sep)
  }

  /** Python's `sub in s` for strings. */
  predicate Contains(s: string, sub: string)
    decreases |s|
  {
    if |s| < |sub| then false
    else sub <= s || Contains(s[1..], sub)
  }

  /** `sub` occurs in `s` starting at index `i`. */
  predicate OccursAt(s: string, sub: string, i: int) {
    0 <= i && i + |sub| <= |s| && s[i..i + |sub|] == sub
  }

  /** `sub in s` holds exactly when `sub` occurs somewhere in `s`. */
  lemma {:induction false} ContainsOccurs(s: string, sub: string)
    ensures Contains(s, sub) <==> exists i :: OccursAt(s, sub, i)
    decreases |s|
  {
    if s == [] {
      if sub == [] {
        assert OccursAt(s, sub, 0);
      }
    } else if |s| >= |sub| {
      var t := s[1..];
      ContainsOccurs(t, sub);
      if sub <= s {
        assert OccursAt(s, sub, 0);
      }
      if exists i :: OccursAt(t, sub, i) {
        var i :| OccursAt(t, sub, i);
        assert t[i..i + |sub|] == s[i + 1..i + 1 + |sub|];
        assert OccursAt(s, sub, i + 1);
      }
      if exists i :: OccursAt(s, sub, i) {
        var i :| OccursAt(s, sub, i);
        if i == 0 {
          assert sub <= s;
        } else {
          assert s[i..i + |sub|] == t[i - 1..i - 1 + |sub|];
          assert OccursAt(t, sub, i - 1);
        }
      }
    }
  }

  /** Every occurrence of a piece in the middle of a text is found. */
  lemma {:induction false} ContainsInfix(a: string, sub: string, b: string)
    ensures Contains(a + sub + b, sub)
    decreases |a|
  {
    var s := a + sub + b;
    if a == [] {
      assert s[..|sub|] == sub;
    } else {
      assert s[1..] == a[1..] + sub + b;
      ContainsInfix(a[1..], sub, b);
    }
  }

  function Spaces(n: int): (r: string)
    ensures |r| == (if n < 0 then 0 else n)
    ensures forall k :: 0 <= k < |r| ==> r[k] == ' '
    ensures AllSpace(r)
  {
    if n <= 0 then "" else " " + Spaces(n - 1)
  }

  /** `"%-<w>s" % s`: left-justified in a field of width `w`, never cut. */
  function PadRight(s: string, w: nat): (r: string)
    ensures |r| == if |s| < w then w else |s|
    ensures r[..|s|] == s
    ensures AllSpace(r[|s|..])
    ensures forall k :: |s| <= k < |r| ==> r[k] == ' '
  {
    var r := s + Spaces(w - |s|);
    assert r[|s|..] == Spaces(w - |s|);
    r
  }

  /** `"%<w>s" % s`: right-justified in a field of width `w`, never cut. */
  function PadLeft(s: string, w: nat): (r: string)
    ensures |r| == if |s| < w then w else |s|
    ensures r[|r| - |s|..] == s
    ensures AllSpace(r[..|r| - |s|])
    ensures forall k :: 0 <= k < |r| - |s| ==> r[k] == ' '
  {
    var r := Spaces(w - |s|) + s;
    assert r[..|r| - |s|] == Spaces(w - |s|);
    r
  }

  /** Index of the first newline in `s`, or `|s|` if there is none. */
  function LineLength(s: string): (n: nat)
    ensures n <= |s|
    ensures '\n' !in s[..n]
    ensures n == |s| || s[n] == '\n'
  {
    if s == [] || s[0] == '\n' then 0 else 1 + LineLength(s[1..])
  }

  /** Python's `s.split("\n")`: the pieces between newlines, so a text with
      `k` newlines has `k + 1` lines and a final newline leaves an empty
      last line. */
  function SplitLines(s: string): (r: seq<string>)
    ensures |r| > 0
    ensures forall k :: 0 <= k < |r| ==> '\n' !in r[k]
    decreases |s|
  {
    var n := LineLength(s);
    if n == |s| then [s] else [s[..n]] + SplitLines(s[n + 1..])
  }

  lemma {:induction false} LineLengthOfLine(a: string, b: string)
    requires '\n' !in a
    requires b == [] || b[0] == '\n'
    ensures LineLength(a + b) == |a|
    decreases |a|
  {
    if a != [] {
      assert (a + b)[1..] == a[1..] + b;
      LineLengthOfLine(a[1..], b);
    }
  }

  /** A newline-free line followed by a newline splits off as one line. */
  lemma SplitLinesCons(p: string, b: string)
    requires '\n' !in p
    ensures SplitLines(p + "\n" + b) == [p] + SplitLines(b)
  {
    var s := p + "\n" + b;
    LineLengthOfLine(p, "\n" + b);
    assert s == p + ("\n" + b);
    assert s[..|p|] == p;
    assert s[|p| + 1..] == b;
  }

  /** A line `p` followed by newline-prefixed lines `rs` splits back into
      exactly `[p] + rs`. */
  lemma {:induction false} SplitLinesPrefixed(p: string, rs: seq<string>)
    requires '\n' !in p
    requires forall k :: 0 <= k < |rs| ==> '\n' !in rs[k]
    ensures SplitLines(p + Prefixed(rs, '\n')) == [p] + rs
    decreases |rs|
  {
    if rs == [] {
      assert p + "" == p;
      LineLengthOfLine(p, "");
    } else {
      var tail := rs[0] + Prefixed(rs[1..], '\n');
      calc {
        p + Prefixed(rs, '\n');
        p + ("\n" + rs[0] + Prefixed(rs[1..], '\n'));
        p + "\n" + tail;
      }
      SplitLinesCons(p, tail);
      SplitLinesPrefixed(rs[0], rs[1..]);
      assert [rs[0]] + rs[1..] == rs;
    }
  }

  /** A header line `k`, two empty lines, then newline-prefixed lines `ls`
      splits back into exactly those lines. */
  lemma SplitLinesHeader(k: string, ls: seq<string>)
    requires '\n' !in k
    requires forall i :: 0 <= i < |ls| ==> '\n' !in ls[i]
    ensures SplitLines(k + "\n\n" + Prefixed(ls, '\n')) == [k, "", ""] + ls
  {
    var p := Prefixed(ls, '\n');
    var q := "\n" + p;
    SplitLinesPrefixed("", ls);
    assert "" + p == p;
    SplitLinesLeadingNewline(p);
    SplitLinesCons(k, q);
    Regroup(k, "\n", "\n", p);
    assert "\n\n" == "\n" + "\n";
    ConsThree(k, "", "", ls);
  }

  /** A leading newline contributes one empty first line. */
  lemma SplitLinesLeadingNewline(q: string)
    ensures SplitLines("\n" + q) == [""] + SplitLines(q)
  {
    SplitLinesCons("", q);
    assert "" + "\n" + q == "\n" + q;
  }
}
